=== FILE: README.md ===
# Canteen ordering: a Dafny model of the cart, the orders and the admin APIs

This project models the logic of a university canteen ordering web app. Students
fill a cart from the menu and check out to place an order. Staff move each order
through its lifecycle on a dashboard: received, preparing, ready, taken (unpaid),
completed. Two token-protected JSON endpoints report statistics and a student
directory.

The model is purely functional. Orders live in an in-memory `Store`, and every
backend call becomes a function over it. An `available` flag stands for a backend
failure. The clock, the random draw and the calendar-day function are parameters.

| file | module | models |
|---|---|---|
| wrappers.dfy | Wrappers | `Option`, `Result` |
| numbers.dfy | Numbers | `Math.min`/`Math.max` and the millisecond minute |
| folds.dfy | Folds | `reduce`/`filter` as folds from the end of a sequence, and their algebra |
| order_status.dfy | OrderStatus | the five status names and the forward lifecycle |
| cart.dfy | Cart | `addItem`, `removeItem`, `updateQuantity`, `clearCart`, and the discounted `total` |
| checkout.dfy | Checkout | `handleCheckout` and the unit price the cart page shows |
| orders.dfy | Orders | `createOrder`, `updateOrderStatus`, `getOrderById` and the newest-first queries |
| dashboard.dfy | Dashboard | the status buckets, the button edges, `todayOrders`, `formatTime`, `handleStatusUpdate` |
| student_orders.dfy | StudentOrders | the active/past split, `getStatusBadge`, `formatDate` |
| api_auth.dfy | ApiAuth | the bearer-token check shared by both endpoints |
| stats.dfy | Stats | the statistics fold and the `/api/stats` handler |
| students.dfy | Students | the per-student rollup, the paging arithmetic and the `/api/students` handler |

Each operation has a partner.
- The cart operations have per-id quantity laws and keep the cart well-formed (unique ids, positive quantities).
- The discounted total has an independent reference: the list total less the per-line savings.
- The store operations have read-back lemmas.
- The folds of the two endpoints have reference descriptions stated over the documents themselves:
  - a per-status count;
  - each record's first document, its order count and sum, and its latest time.

## Model

| member | source | states |
|---|---|---|
| Cart.AddItem | contexts/CartContext.tsx:32-42 | An id already in the cart keeps the cart's length and bumps only that line by one. A new id appends exactly one line of quantity 1. Either way the id is then present. |
| Cart.AddItemLaws | contexts/CartContext.tsx:32-42 | On a well-formed cart, adding keeps ids unique and quantities positive. It raises the quantity of that id by one, leaves every other id's quantity alone, and raises the item count by one. |
| Cart.RemoveItem | contexts/CartContext.tsx:44-46 | The result holds exactly the lines whose id differs, and the id no longer occurs. |
| Cart.RemoveItemLaws | contexts/CartContext.tsx:44-46 | Removal zeroes that id's quantity and keeps every other id's quantity. The item count drops by exactly the removed quantity. Well-formedness is kept, and an absent id leaves the cart identical. |
| Cart.RemoveItemSnoc | contexts/CartContext.tsx:44-46 | Removal works line by line and keeps the relative order of the lines that stay. |
| Cart.UpdateQuantity | contexts/CartContext.tsx:48-56 | A quantity of 0 or less removes the id. A positive quantity keeps the length and changes only the quantity of lines with that id. |
| Cart.UpdateQuantityLaws | contexts/CartContext.tsx:48-56 | A quantity of 0 or less equals `removeItem`. A positive quantity sets that id's quantity to q, keeps all others, and moves the item count by q minus the old quantity. An absent id changes nothing, and well-formedness is kept. |
| Cart.ClearCart | contexts/CartContext.tsx:58-60 | The cleared cart has item count 0 and total 0. |
| Cart.CountsSnoc | contexts/CartContext.tsx:63-68 | The drink-unit count and the eligible-meal-unit count each grow by exactly the next line's contribution. |
| Cart.DiscountBound | contexts/CartContext.tsx:63-78 | Discount slots handed out over the whole cart equal min(drink units, eligible meal units). Discounted units are at most that. |
| Cart.AllocationPrefix | contexts/CartContext.tsx:73-78 | After the first n lines, slots handed out equal min(cap, drink units before line n). This holds whether or not those drinks carry a discounted price. |
| Cart.UnitDiscountedIffEarly | contexts/CartContext.tsx:73-78 | Unit u of drink line k takes a slot exactly when the drink units before it, plus u, fall below the cap. Slots go to drinks in cart order. |
| Cart.AllocatedWithinLine | contexts/CartContext.tsx:78-79 | A line's discounted units are between 0 and its allocated slots, which are at most its quantity. |
| Cart.TotalIsListLessSavings | contexts/CartContext.tsx:70-84 | The total equals the list total less the sum of per-line savings. Each saving is discounted units times (price − discounted price). |
| Cart.LineChargeIsListLessSaving | contexts/CartContext.tsx:72-83 | Each line's charge is its list charge less its own saving. |
| Cart.NoEligibleMealMeansListPrice | contexts/CartContext.tsx:72-83 | With no meal carrying `hasDiscountedDrinks`, every line is charged price × quantity and the total is the list total. |
| Cart.TotalAtMostListTotal | contexts/CartContext.tsx:70-84 | When every discounted price is at most its list price, the total never exceeds the list total. |
| Cart.TotalNonNegative | contexts/CartContext.tsx:70-84 | With non-negative prices and quantities, every prefix of the total is non-negative. |
| Cart.OneMealTwoDrinks | contexts/CartContext.tsx:63-81 | One eligible 45 meal plus two 20/15 drinks totals 80: only one drink unit is discounted. |
| Cart.DrinkWithoutMeal | contexts/CartContext.tsx:72-83 | A discounted drink without an eligible meal is charged its list price. |
| Cart.UndiscountedDrinkTakesSlot | contexts/CartContext.tsx:72-78 | A drink without a discounted price still uses up the one slot ahead of a later discounted drink. So the same cart totals 77 or 72 depending on line order. |
| Checkout.HandleCheckout | app/cart/page.tsx:15-49 | An empty cart, or no signed-in user, changes nothing. An order is placed exactly when the store accepts it. It carries the user's name and student id (or "N/A"), the mirrored items, the cart total and status received, and only then is the cart cleared. A store failure leaves cart and store unchanged. |
| Checkout.ToOrderItems | app/cart/page.tsx:32-36 | One order line per cart line, in order, with the line's name, quantity and list price. |
| Checkout.OrderItemsMirrorCart | app/cart/page.tsx:32-36 | The order lines' quantities add up to the cart's item count, and their price × quantity amounts to the cart's list total. |
| Checkout.OrderLinesVersusTotal | app/cart/page.tsx:32-37 | The order's line amounts exceed the order total by exactly the drink savings. |
| Checkout.HasMealIffEligibleUnits | app/cart/page.tsx:12 | With positive quantities, the page's "some eligible meal" test agrees with the pricing fold's eligible-meal count being positive. |
| Checkout.DisplayedAmountVersusCharge | app/cart/page.tsx:100-108 | For every line, quantity × shown unit price equals the line's charge exactly when the shown price is the list price or all the line's units are discounted. A discounted unit is always shown at the discounted price. When discounted prices do not exceed list prices, the shown amount never overstates the charge. |
| Checkout.DisplayedPriceIgnoresCap | app/cart/page.tsx:100-108 | The shown unit price of a capped drink line is the discounted one, although the cart charges it at list price. |
| OrderStatus.NameParseRoundTrip | lib/orders.ts:4 | Parsing a status name gives that status back. A string parses exactly when it is one of the five names. |
| OrderStatus.LifecycleShape | app/admin/dashboard/page.tsx:184-324 | The forward lifecycle: the terminal status has no successor, and every other status has exactly one. No edge is a self-loop or has a reverse edge. |
| Orders.OrderNumberFor | lib/orders.ts:28 | Every draw in [0, 1) gives an order number in 1000..9999. |
| Orders.CreateOrder | lib/orders.ts:25-50 | A backend failure or a used id is an error. Otherwise exactly one order is appended. It carries the request's student, items and total, status received whatever was asked, the current time, and a number in 1000..9999. |
| Orders.CreateThenGet | lib/orders.ts:25-50 | A created order reads back unchanged by its id, and document ids stay unique. |
| Orders.OrderNumbersMayCollide | lib/orders.ts:28 | Two stored orders can share an order number. |
| Orders.UpdateOrderStatus | lib/orders.ts:116-136 | A missing id or a backend failure is an error. Otherwise exactly that document gets the new status and update time; every other field and document is unchanged. |
| Orders.UpdateThenGet | lib/orders.ts:116-136 | After an update the order reads back with the new status and time, and ids stay unique. |
| Orders.UpdateHasNoTransitionCheck | lib/orders.ts:116-126 | Any target status is accepted from any current status. |
| Orders.SkippedEdgeIsAccepted | lib/orders.ts:116-126 | ready → completed is not a lifecycle edge, yet the update applies it. |
| Orders.GetOrderById | lib/orders.ts:139-155 | Unavailable when the backend fails and not-found when no order has the id. Otherwise it succeeds, returning the first stored order with that id. |
| Orders.InsertNewestLaws | lib/orders.ts:55-59 | Inserting into a newest-first list keeps it newest-first and adds exactly that order. |
| Orders.FirstPage | lib/orders.ts:55-59 | A listing without a limit returns min(n, 25) of the n orders, newest first, taken from the orders themselves. No order left out is newer than one returned, and with at most 25 orders every order comes back. |
| Orders.GetAllOrders | lib/orders.ts:53-69 | Succeeds unless the backend fails, returning the newest 25 stored orders newest first, or every stored order when there are at most 25. |
| Orders.GetOrdersByStatus | lib/orders.ts:72-91 | Returns only stored orders with that status: the newest 25 of them, newest first. With at most 25 such orders it returns exactly those, each as often as stored. |
| Orders.GetOrdersByStudent | lib/orders.ts:94-113 | Returns only stored orders of that student: the newest 25 of them, newest first. With at most 25 such orders it returns exactly those, each as often as stored. |
| Dashboard.ButtonsIssueLegalEdges | app/admin/dashboard/page.tsx:184-324 | A button asks for t from s exactly when t is the legal successor of s. A status has a button exactly when it is not terminal, i.e. it has a bucket. |
| Dashboard.Bucket | app/admin/dashboard/page.tsx:72-75 | A bucket holds exactly the listed orders of its status. |
| Dashboard.BucketsPartition | app/admin/dashboard/page.tsx:72-75 | Buckets are pairwise disjoint. Every order not yet completed sits in its status's bucket, and a completed one in none. Each bucket keeps list order. |
| Dashboard.TodayOrders | app/admin/dashboard/page.tsx:76-80 | Exactly the orders created on the same calendar day as now. |
| Dashboard.FormatTime | app/admin/dashboard/page.tsx:82-91 | "Just now" exactly below one whole minute, future times included. Otherwise the whole minutes (1..59), or the whole hours, bracket the elapsed time. |
| Dashboard.HandleStatusUpdate | app/admin/dashboard/page.tsx:53-61 | The update alerts exactly when the backend fails or the order is gone, and then store and shown list stay unchanged. Otherwise the store is the updated one, holding that order with the new status and time. The shown list becomes the refreshed newest page, which shows the new status when the store holds at most 25 orders, or stays as it was if the refresh fails. |
| Dashboard.ButtonPressAdvances | app/admin/dashboard/page.tsx:53-61 | Pressing the button on a stored order that is not completed succeeds, and moves the order to its legal successor with every other field kept. |
| StudentOrders.ActiveOrders | app/orders/page.tsx:41-43 | Exactly the orders that are received, preparing or ready. |
| StudentOrders.PastOrders | app/orders/page.tsx:44-46 | Exactly the orders that are taken-unpaid or completed. |
| StudentOrders.ActivePastPartition | app/orders/page.tsx:41-46 | The two lists split the orders exactly, counting repeats, and each keeps list order. |
| StudentOrders.StatusBadge | app/orders/page.tsx:48-67 | A status that is none of the five names gets the received style and its own text as label. |
| StudentOrders.BadgesDistinguishStatuses | app/orders/page.tsx:48-67 | Each status gets its own style and label, distinct statuses differ in both, and taken-unpaid reads "Pending Payment". |
| StudentOrders.FormatDate | app/orders/page.tsx:69-84 | Minutes exactly when under an hour has elapsed, future times included. Whole hours 1..23 below a day. The calendar date exactly from one day on. |
| ApiAuth.ConfiguredToken | app/api/stats/route.ts:5 | The configured token is never empty: it is the environment's when set and non-empty. |
| ApiAuth.BearerHeaderAccepted | app/api/stats/route.ts:10-18 | "Bearer t" passes exactly when t is the non-empty configured token. |
| ApiAuth.RawTokenAccepted | app/api/stats/route.ts:10-18 | A header without "Bearer " passes exactly when it is the token itself. A missing header never passes. |
| ApiAuth.InnerPrefixRemoved | app/api/stats/route.ts:11 | The first "Bearer " is stripped wherever it occurs, so "xBearer abc" passes for token "xabc". |
| ApiAuth.SearchFrom | app/api/stats/route.ts:11 | Finds the first occurrence of the pattern at or after a position, or reports that none exists. |
| Stats.CountByStatusLaws | app/api/stats/route.ts:29-35 | The five names come first in declaration order, no key repeats, and every further key is some document's status. Each key counts exactly the documents with that status, and every document's status is a key. |
| Stats.StatusCountsAddUp | app/api/stats/route.ts:47-49 | The status counts sum to the number of documents. |
| Stats.TypedOrdersKeepFiveKeys | app/api/stats/route.ts:29-49 | Orders whose status is one of the five add no key: the keys stay exactly the five names. |
| Stats.RevenueCountsOnlyCompleted | app/api/stats/route.ts:51-53 | Revenue is the sum of totals over the completed documents only. A document of any other status adds nothing. |
| Stats.StudentsAtMostOrders | app/api/stats/route.ts:28-48 | There are never more distinct students than documents. |
| Stats.RecentCountsOrdered | app/api/stats/route.ts:55-61 | A later cut-off never counts more documents. |
| Stats.RoundedAverage | app/api/stats/route.ts:71-73 | For n > 0 the result is the integer nearest total/n, halves rounding up. For no orders it is 0. |
| Stats.Statistics | app/api/stats/route.ts:64-74 | Total is the document count. Students is the number of distinct student ids, at most the total. Today and week count the documents created at or after each cut-off, and today ≤ week when the day starts after the week cut-off. Revenue is the sum of totals over completed documents only. The status counts are a tally of the documents, adding up to the total, and the average rounds revenue/total. No documents give all zeros with the five zero keys. |
| Stats.CompletedAndUnpaidExample | app/api/stats/route.ts:51-73 | A completed 60 and a taken-unpaid 50 give revenue 60 and average 30. |
| Stats.StatsRoute | app/api/stats/route.ts:7-85 | 401 exactly when the token check fails, and 500 exactly when it passes but the backend fails. Otherwise the report is the statistics of the first 2000 stored documents. So its status counts are a tally of those documents, its revenue sums the completed ones only, and today ≤ week whenever today began within the last day. |
| Students.EmailOf | app/api/students/route.ts:49 | The document's email when present and non-empty, otherwise the student id at the student domain. |
| Students.RollupLaws | app/api/students/route.ts:40-66 | One record per distinct student id, in order of first appearance. Name and email come from the first document, with programme "Unknown" and no year. Orders and spend are that student's count and sum over all statuses, lastLogin is the latest creation time, and order counts sum to the documents scanned. |
| Students.RollupCountsDistinctStudents | app/api/students/route.ts:68-75 | The number of records equals the number of distinct student ids. |
| Students.ResolveIndex | app/api/students/route.ts:71 | The slice index rule: clamped to the length, with a negative index counting back from the end. |
| Students.JsSlice | app/api/students/route.ts:71 | Length is the non-negative gap between the resolved bounds, and elements run from the resolved start. Within bounds it is the ordinary subsequence. |
| Students.Page | app/api/students/route.ts:25-71 | A page holds only listed records, at most `limit` of them for a positive limit. For page and limit at least 1 it holds exactly min(limit, records left after the earlier pages) records. A NaN page or limit gives an empty page. |
| Students.PagesHoldRecordsInOrder | app/api/students/route.ts:25-71 | For limit ≥ 1, record i is entry i mod limit of page i div limit + 1, so the pages lay the records out in order. |
| Students.PagesBeyondEndAreEmpty | app/api/students/route.ts:25-78 | For limit ≥ 1, page 0 and any page past totalPages are empty. |
| Students.NegativePageCountsFromEnd | app/api/students/route.ts:25-71 | Page −1 is the second-to-last block of `limit` records from the end. |
| Students.TotalPages | app/api/students/route.ts:78 | For a positive limit, the least page count whose pages cover all students. A negative limit gives JavaScript's ceiling of the negative quotient, and a zero or NaN limit gives null. |
| Students.StudentsRoute | app/api/students/route.ts:10-88 | 401 exactly when the token check fails, and 500 exactly when the token check passes but the backend fails. The page and limit default to 1 and 50. Total is the number of distinct students among at most 1000 scanned documents. The records are the requested page of the roll-up of those documents, and totalPages is the page count of total by limit. |
| Students.RouteRecordsDescribeStudents | app/api/students/route.ts:40-71 | Every record the endpoint returns describes its student among the scanned documents. |

## Behaviour kept from the code

The model follows the code wherever the code's behaviour is surprising. Each point below is stated by a member above, except the discount-reachability point, which is about a page outside the model.

- **Discount allocation:**
  - The total discounts only min(drink units, eligible meal units) drink units.
  - It allocates them in cart order.
  - A drink without a discounted price still uses up a slot.
  - One discounted meal with two discounted drinks therefore costs 45 + 15 + 20 = 80, not 75 (`Cart.OneMealTwoDrinks`).
- **Discount reachability:** the menu page adds items without a `type` (app/menu/page.tsx:133), so in the shipped app no line is ever a meal or a drink and no discount applies. The model takes `type` as an input.
- **Order lines:** they carry the list price, not the discounted one. So the line amounts can add up to more than the order total (`Checkout.OrderLinesVersusTotal`).
- **Shown drink price:** the cart page shows the discounted price for every discounted drink once any eligible meal is present, including units the total charges at list price (`Checkout.DisplayedPriceIgnoresCap`).
- **Status changes:**
  - `updateOrderStatus` does not check transitions (`Orders.SkippedEdgeIsAccepted`).
  - The lifecycle is enforced only by which buttons the dashboard draws.
- **Order numbers:** they are random in 1000..9999 and may repeat.
- **Order listings:** the three listing queries set no limit, so the store returns only its default page of the 25 newest orders (`Orders.FirstPage`). The dashboard therefore shows at most 25 orders.
- **Token parsing:** the token check removes the first "Bearer " anywhere in the header, not only a leading one.
- **Statistics:**
  - The average divides completed revenue by all orders.
  - A status outside the five names adds a key of its own.
- **Student paging:** a negative page counts from the end of the list, and a zero limit makes `totalPages` null.

## Left out

- Backend, session and rendering:
  - The Appwrite client and server SDK calls become functions over an in-memory store.
  - Their failures are one `available` flag. The catch paths become an error outcome or a 500.
  - Sessions and `getCurrentUser` become an optional user.
  - Routing, redirects, `alert`, JSX and the dashboard's 10-second polling are not modelled.
- Concurrency: two staff updating one order at once are not modelled. The model is sequential.
- `Math.random` becomes a `draw` parameter in [0, 1).
- `new Date()` becomes a `now` parameter, and timestamps are integers in milliseconds.
- Date parsing:
  - ISO strings, invalid dates and `toLocaleDateString` text are not modelled.
  - `toDateString` is a `day` function parameter.
- Stats.StatsRoute: local midnight (`setHours`) is a `todayStart` parameter. The week cut-off is taken as exactly seven days of milliseconds before now, which ignores daylight-saving shifts in `setDate`.
- `parseInt` of the query strings is not modelled. The students endpoint takes the parsed number, or NaN, as input.
- Numbers:
  - Prices, totals and revenue are integers, so floating-point sums are not modelled.
  - `Math.round` and `Math.ceil` become exact integer formulas.
- Stats.CountByStatusLaws: keys are plain strings. An order status naming an inherited property of a JavaScript object (such as "toString" or "__proto__") is not modelled. Neither is the rule that JavaScript lists integer-like keys (such as "7") before all other keys, which would put such a status ahead of the five names.
- StudentOrders.StatusBadge: a status naming an inherited property of a JavaScript object (such as "constructor" or "toString") would get that property's value as style and label. The model gives it the received style and its own text, like any other unknown string.
- Cart.DrinksBefore: the code finds a line's earlier drinks with `items.indexOf(item)`, which matches by object identity. The model uses the line's position. The two agree on every cart the operations build, because none of them stores the same line object twice.
- JSON encoding of order items is taken as the identity on the item list.
- Orders.FirstPage: the order among orders with equal `createdAt` is not pinned down, and neither is which of them make the page at the 25th place. The store does not specify either.
- Orders.GetOrderById: Appwrite's extra document fields (`$createdAt`, permissions) are not modelled.
- ApiAuth.ReplaceFirst: only the no-match case is stated on the function. The match case is stated through `ApiAuth.BearerHeaderAccepted` and `ApiAuth.InnerPrefixRemoved`.
- Login, registration, the admin menu editor, the API tester page and the mock menu have no logic beyond forms, so they are not modelled.

=== FILE: api_auth.dfy ===
/** The bearer-token check shared by app/api/stats/route.ts and
    app/api/students/route.ts. */
module ApiAuth {
  import opened Wrappers

  /** The token used when the `API_TOKEN` environment variable is unset or empty. */
  const DefaultToken := "hsu_sk_1234567890abcdef"

  const BearerPrefix := "Bearer "

  /** `process.env.API_TOKEN || DefaultToken`. */
  function ConfiguredToken(env: Option<string>): (r: string)
    ensures r != ""
    ensures env.Some? && env.value != "" ==> r == env.value
  {
    if env.Some? && env.value != "" then env.value else DefaultToken
  }

  /** `pat` occurs in `s` at position i. */
  predicate OccursAt(s: string, pat: string, i: nat) {
    i + |pat| <= |s| && s[i..i + |pat|] == pat
  }

  /** The first position at or after `from` where `pat` occurs. */
  function SearchFrom(s: string, pat: string, from: nat): (r: Option<nat>)
    requires from <= |s|
    ensures r.Some? ==> from <= r.value && OccursAt(s, pat, r.value)
    ensures r.Some? ==> forall j :: from <= j < r.value ==> !OccursAt(s, pat, j)
    ensures r.None? ==> forall j :: from <= j <= |s| ==> !OccursAt(s, pat, j)
    decreases |s| - from
  {
    if OccursAt(s, pat, from) then Some(from)
    else if from == |s| then None
    else SearchFrom(s, pat, from + 1)
  }

  /** `String.prototype.replace` with a string pattern: only the first
      occurrence, wherever it is, is replaced. */
  function ReplaceFirst(s: string, pat: string, rep: string): (r: string)
    ensures SearchFrom(s, pat, 0).None? ==> r == s
  {
    match SearchFrom(s, pat, 0)
    case None => s
    case Some(i) => s[..i] + rep + s[i + |pat|..]
  }

  /** `authHeader?.replace('Bearer ', '')`. */
  function BearerToken(header: Option<string>): Option<string> {
    match header
    case None => None
    case Some(h) => Some(ReplaceFirst(h, BearerPrefix, ""))
  }

  /** The request passes unless the token is missing, empty or different
      from the configured one. */
  predicate Authorized(header: Option<string>, apiToken: string) {
    var token := BearerToken(header);
    token.Some? && token.value != "" && token.value == apiToken
  }

  /** "Bearer <t>" passes exactly when t is the configured, non-empty token. */
  lemma BearerHeaderAccepted(t: string, apiToken: string)
    ensures Authorized(Some(BearerPrefix + t), apiToken) <==> t != "" && t == apiToken
  {
    var h := BearerPrefix + t;
    assert OccursAt(h, BearerPrefix, 0) by { assert h[0..|BearerPrefix|] == BearerPrefix; }
    assert h[|BearerPrefix|..] == t;
  }

  /** A raw token with no "Bearer " in it passes on its own, and a missing
      header never passes. */
  lemma RawTokenAccepted(t: string, apiToken: string)
    requires forall j :: 0 <= j <= |t| ==> !OccursAt(t, BearerPrefix, j)
    ensures Authorized(Some(t), apiToken) <==> t != "" && t == apiToken
    ensures !Authorized(None, apiToken)
  {
  }

  /** The first "Bearer " is removed even in the middle of a header. */
  lemma InnerPrefixRemoved()
    ensures Authorized(Some("xBearer abc"), "xabc")
  {
    var h := "xBearer abc";
    assert !OccursAt(h, BearerPrefix, 0) by { assert h[0] != BearerPrefix[0]; assert h[0..7][0] == h[0]; }
    assert OccursAt(h, BearerPrefix, 1) by { assert h[1..8] == BearerPrefix; }
    assert h[..1] + "" + h[8..] == "xabc";
  }
}

=== FILE: cart.dfy ===
/** The client-side cart of contexts/CartContext.tsx: the list operations
    and the derived counts and total, with the meal-bundled drink discount. */
module Cart {
  import opened Wrappers
  import opened Folds
  import opened Numbers

  datatype ItemKind = Meal | Drink

  /** The menu entry handed to `addItem` (a cart item without its quantity).
      `kind`, `originalPrice` and `discountedPrice` are optional in the source. */
  datatype Product = Product(
    id: string,
    name: string,
    price: int,
    kind: Option<ItemKind>,
    originalPrice: Option<int>,
    discountedPrice: Option<int>,
    hasDiscountedDrinks: bool)

  datatype CartLine = CartLine(product: Product, quantity: int)

  type Cart = seq<CartLine>

  function Id(l: CartLine): string { l.product.id }

  function Quantity(l: CartLine): int { l.quantity }

  predicate HasId(cart: Cart, id: string) {
    exists l :: l in cart && Id(l) == id
  }

  /** No two lines carry the same menu id. */
  predicate UniqueIds(cart: Cart) {
    forall i, j :: 0 <= i < j < |cart| ==> Id(cart[i]) != Id(cart[j])
  }

  /** Every line holds at least one unit. */
  predicate PositiveQuantities(cart: Cart) {
    forall l :: l in cart ==> l.quantity > 0
  }

  predicate NonNegativeQuantities(cart: Cart) {
    forall l :: l in cart ==> l.quantity >= 0
  }

  /** The invariant every cart operation keeps: one line per id, each with
      at least one unit. */
  predicate Valid(cart: Cart) {
    UniqueIds(cart) && PositiveQuantities(cart)
  }

  /** Units in the cart of the given menu id. */
  function QuantityOf(cart: Cart, id: string): int {
    Sum(cart, UnitsWithId(id))
  }

  function UnitsWithId(id: string): CartLine -> int {
    l => if Id(l) == id then l.quantity else 0
  }

  function WithId(id: string): CartLine -> bool {
    l => Id(l) == id
  }

  function WithoutId(id: string): CartLine -> bool {
    l => Id(l) != id
  }

  // ---------------------------------------------------------------------
  // List operations
  // ---------------------------------------------------------------------

  /** `addItem`: an id already present gets one more unit on each line
      carrying it (every other field of the line is kept); a new id is
      appended with quantity 1. */
  function AddItem(cart: Cart, p: Product): (r: Cart)
    ensures HasId(cart, p.id) ==> |r| == |cart|
    ensures HasId(cart, p.id) ==> forall i :: 0 <= i < |r| ==>
      r[i].product == cart[i].product &&
      r[i].quantity == cart[i].quantity + (if Id(cart[i]) == p.id then 1 else 0)
    ensures !HasId(cart, p.id) ==> r == cart + [CartLine(p, 1)]
    ensures HasId(r, p.id)
  {
    if HasId(cart, p.id) then
      var r := seq(|cart|, i requires 0 <= i < |cart| =>
        if Id(cart[i]) == p.id then cart[i].(quantity := cart[i].quantity + 1) else cart[i]);
      assert HasId(r, p.id) by {
        var l :| l in cart && Id(l) == p.id;
        var j :| 0 <= j < |cart| && cart[j] == l;
        assert r[j] in r;
      }
      r
    else
      var r := cart + [CartLine(p, 1)];
      assert r[|cart|] in r;
      r
  }

  /** `removeItem`: drops every line with that id, keeping the rest in order. */
  function RemoveItem(cart: Cart, id: string): (r: Cart)
    ensures forall l :: l in r <==> l in cart && Id(l) != id
    ensures !HasId(r, id)
  {
    Filter(cart, WithoutId(id))
  }

  /** `updateQuantity`: a quantity of 0 or less removes the id; otherwise
      every line with that id gets exactly the new quantity. */
  function UpdateQuantity(cart: Cart, id: string, q: int): (r: Cart)
    ensures q <= 0 ==> !HasId(r, id)
    ensures q > 0 ==> |r| == |cart| && forall i :: 0 <= i < |r| ==>
      r[i].product == cart[i].product &&
      r[i].quantity == (if Id(cart[i]) == id then q else cart[i].quantity)
  {
    if q <= 0 then RemoveItem(cart, id)
    else
      seq(|cart|, i requires 0 <= i < |cart| =>
        if Id(cart[i]) == id then cart[i].(quantity := q) else cart[i])
  }

  /** `clearCart`: the empty cart, which holds nothing and costs nothing. */
  function ClearCart(): (r: Cart)
    ensures ItemCount(r) == 0 && Total(r) == 0
  {
    []
  }

  /** `itemCount`: units over all lines. */
  function ItemCount(cart: Cart): int {
    Sum(cart, Quantity)
  }

  // ---------------------------------------------------------------------
  // Pricing
  // ---------------------------------------------------------------------

  predicate IsDrink(l: CartLine) {
    l.product.kind == Some(Drink)
  }

  predicate IsEligibleMeal(l: CartLine) {
    l.product.kind == Some(Meal) && l.product.hasDiscountedDrinks
  }

  /** JavaScript truthiness of `discountedPrice`: present and non-zero. */
  predicate HasDiscountPrice(p: Product) {
    p.discountedPrice.Some? && p.discountedPrice.value != 0
  }

  function EligibleMealUnits(l: CartLine): int {
    if IsEligibleMeal(l) then l.quantity else 0
  }

  function DrinkUnits(l: CartLine): int {
    if IsDrink(l) then l.quantity else 0
  }

  /** `mealsWithDiscountCount`. */
  function MealsWithDiscountCount(cart: Cart): int {
    Sum(cart, EligibleMealUnits)
  }

  /** `totalDrinks`. */
  function TotalDrinks(cart: Cart): int {
    Sum(cart, DrinkUnits)
  }

  /** `discountedDrinkCount`: how many drink units may be discounted. */
  function DiscountCap(cart: Cart): int {
    Min(TotalDrinks(cart), MealsWithDiscountCount(cart))
  }

  /** `drinksProcessedSoFar` for the line at position k: drink units on
      every earlier drink line, whether or not that line has a discount. */
  function DrinksBefore(cart: Cart, k: nat): int
    requires k <= |cart|
  {
    TotalDrinks(cart[..k])
  }

  /** The discount slots line k takes up in cart order. A drink line takes
      its share even when it has no truthy `discountedPrice`. */
  function Allocated(cart: Cart, k: nat): int
    requires k < |cart|
  {
    if IsDrink(cart[k]) then
      Max(0, Min(cart[k].quantity, DiscountCap(cart) - DrinksBefore(cart, k)))
    else 0
  }

  /** `thisItemDiscounted`: units of line k actually charged at the discounted price. */
  function DiscountedUnits(cart: Cart, k: nat): int
    requires k < |cart|
  {
    if IsDrink(cart[k]) && HasDiscountPrice(cart[k].product) then Allocated(cart, k) else 0
  }

  /** What line k adds to the running `total`. */
  function LineCharge(cart: Cart, k: nat): int
    requires k < |cart|
  {
    var l := cart[k];
    if IsDrink(l) && HasDiscountPrice(l.product) then
      var d := Allocated(cart, k);
      d * l.product.discountedPrice.value + (l.quantity - d) * l.product.price
    else
      l.product.price * l.quantity
  }

  /** The running total after the first n lines. */
  function TotalUpTo(cart: Cart, n: nat): int
    requires n <= |cart|
  {
    if n == 0 then 0 else TotalUpTo(cart, n - 1) + LineCharge(cart, n - 1)
  }

  /** `total`. */
  function Total(cart: Cart): int {
    TotalUpTo(cart, |cart|)
  }

  /** Discount slots and discounted units summed over the first n lines. */
  function AllocatedUpTo(cart: Cart, n: nat): int
    requires n <= |cart|
  {
    if n == 0 then 0 else AllocatedUpTo(cart, n - 1) + Allocated(cart, n - 1)
  }

  function DiscountedUpTo(cart: Cart, n: nat): int
    requires n <= |cart|
  {
    if n == 0 then 0 else DiscountedUpTo(cart, n - 1) + DiscountedUnits(cart, n - 1)
  }

  /** Every line at its list price: `price × quantity`. */
  function ListCharge(l: CartLine): int {
    l.product.price * l.quantity
  }

  function ListTotal(cart: Cart): int {
    Sum(cart, ListCharge)
  }

  // ---------------------------------------------------------------------
  // Laws of the list operations
  // ---------------------------------------------------------------------

  /** Appending a line keeps ids unique exactly when its id is new. */
  lemma UniqueIdsSnoc(cart: Cart, x: CartLine)
    ensures UniqueIds(cart + [x]) <==> UniqueIds(cart) && !HasId(cart, Id(x))
  {
    var c := cart + [x];
    if UniqueIds(c) {
      assert forall i, j :: 0 <= i < j < |cart| ==> c[i] == cart[i] && c[j] == cart[j];
      forall l | l in cart
        ensures Id(l) != Id(x)
      {
        var i :| 0 <= i < |cart| && cart[i] == l;
        assert c[i] == l && c[|cart|] == x;
      }
    }
    if UniqueIds(cart) && !HasId(cart, Id(x)) {
      forall i, j | 0 <= i < j < |c|
        ensures Id(c[i]) != Id(c[j])
      {
        if j == |cart| {
          assert c[i] == cart[i] && cart[i] in cart;
        } else {
          assert c[i] == cart[i] && c[j] == cart[j];
        }
      }
    }
  }

  /** Under unique ids, the units of a line's id are that line's quantity. */
  lemma QuantityOfUnique(cart: Cart, j: nat)
    requires UniqueIds(cart) && j < |cart|
    ensures QuantityOf(cart, Id(cart[j])) == cart[j].quantity
  {
    var id := Id(cart[j]);
    var zeroed := cart[j := cart[j].(quantity := 0)];
    forall l | l in zeroed
      ensures UnitsWithId(id)(l) == 0
    {
      var i :| 0 <= i < |zeroed| && zeroed[i] == l;
      if i != j {
        assert Id(cart[i]) != Id(cart[j]);
      }
    }
    SumZero(zeroed, UnitsWithId(id));
    SumUpdate(zeroed, j, cart[j], UnitsWithId(id));
    assert zeroed[j := cart[j]] == cart;
  }

  /** Adding a product already in a valid cart bumps exactly that id by
      one unit, keeps the cart valid and adds one unit overall. */
  lemma AddExistingItem(cart: Cart, p: Product)
    requires Valid(cart) && HasId(cart, p.id)
    ensures Valid(AddItem(cart, p))
    ensures forall id :: QuantityOf(AddItem(cart, p), id)
                         == QuantityOf(cart, id) + (if id == p.id then 1 else 0)
    ensures ItemCount(AddItem(cart, p)) == ItemCount(cart) + 1
  {
    var r := AddItem(cart, p);
    var l :| l in cart && Id(l) == p.id;
    var j :| 0 <= j < |cart| && cart[j] == l;
    var x := cart[j].(quantity := cart[j].quantity + 1);
    forall i | 0 <= i < |cart| && i != j
      ensures Id(cart[i]) != p.id
    {
      if i < j { assert Id(cart[i]) != Id(cart[j]); } else { assert Id(cart[j]) != Id(cart[i]); }
    }
    assert r == cart[j := x];
    SumUpdate(cart, j, x, Quantity);
    forall id
      ensures QuantityOf(r, id) == QuantityOf(cart, id) + (if id == p.id then 1 else 0)
    {
      SumUpdate(cart, j, x, UnitsWithId(id));
    }
    assert forall i :: 0 <= i < |r| ==> Id(r[i]) == Id(cart[i]);
    forall m | m in r ensures m.quantity > 0 {
      var i :| 0 <= i < |r| && r[i] == m;
      assert cart[i] in cart;
    }
  }

  /** Adding a product absent from a valid cart appends one unit of it and
      keeps the cart valid. */
  lemma AddNewItem(cart: Cart, p: Product)
    requires Valid(cart) && !HasId(cart, p.id)
    ensures Valid(AddItem(cart, p))
    ensures forall id :: QuantityOf(AddItem(cart, p), id)
                         == QuantityOf(cart, id) + (if id == p.id then 1 else 0)
    ensures ItemCount(AddItem(cart, p)) == ItemCount(cart) + 1
  {
    var x := CartLine(p, 1);
    UniqueIdsSnoc(cart, x);
    SumAppend(cart, [x], Quantity);
    SumSingleton(x, Quantity);
    forall id
      ensures QuantityOf(AddItem(cart, p), id) == QuantityOf(cart, id) + (if id == p.id then 1 else 0)
    {
      SumAppend(cart, [x], UnitsWithId(id));
      SumSingleton(x, UnitsWithId(id));
    }
  }

  /** `addItem` on a valid cart: one more unit of that id and nothing else
      changes; the cart stays valid. */
  lemma AddItemLaws(cart: Cart, p: Product)
    requires Valid(cart)
    ensures Valid(AddItem(cart, p))
    ensures forall id :: QuantityOf(AddItem(cart, p), id)
                         == QuantityOf(cart, id) + (if id == p.id then 1 else 0)
    ensures ItemCount(AddItem(cart, p)) == ItemCount(cart) + 1
  {
    if HasId(cart, p.id) { AddExistingItem(cart, p); } else { AddNewItem(cart, p); }
  }

  /** Removing one more element from the end of a cart. */
  lemma RemoveItemSnoc(cart: Cart, x: CartLine, id: string)
    ensures RemoveItem(cart + [x], id) == RemoveItem(cart, id) + (if Id(x) != id then [x] else [])
  {
    FilterSnoc(cart, x, WithoutId(id));
  }

  /** Removing an id takes away exactly its units, leaves every other id's
      units alone, keeps a valid cart valid, and is the identity when the id
      is absent. */
  lemma RemoveItemLaws(cart: Cart, id: string)
    ensures forall other :: QuantityOf(RemoveItem(cart, id), other)
                            == (if other == id then 0 else QuantityOf(cart, other))
    ensures ItemCount(RemoveItem(cart, id)) == ItemCount(cart) - QuantityOf(cart, id)
    ensures Valid(cart) ==> Valid(RemoveItem(cart, id))
    ensures !HasId(cart, id) ==> RemoveItem(cart, id) == cart
  {
    forall other
      ensures QuantityOf(RemoveItem(cart, id), other) == (if other == id then 0 else QuantityOf(cart, other))
    {
      RemoveItemQuantity(cart, id, other);
    }
    RemoveItemCount(cart, id);
    if Valid(cart) {
      RemoveItemValid(cart, id);
    }
    if !HasId(cart, id) {
      RemoveAbsentItem(cart, id);
    }
  }

  lemma {:induction false} RemoveItemQuantity(cart: Cart, id: string, other: string)
    ensures QuantityOf(RemoveItem(cart, id), other) == (if other == id then 0 else QuantityOf(cart, other))
    decreases |cart|
  {
    if |cart| > 0 {
      var init, x := cart[..|cart| - 1], cart[|cart| - 1];
      assert cart == init + [x];
      RemoveItemQuantity(init, id, other);
      RemoveItemSnoc(init, x, id);
      var ri, u := RemoveItem(init, id), UnitsWithId(other);
      var t := if Id(x) != id then [x] else [];
      SumAppend(ri, t, u);
      if Id(x) != id { SumSingleton(x, u); }
      assert QuantityOf(cart, other) == QuantityOf(init, other) + u(x);
    }
  }

  lemma {:induction false} RemoveItemCount(cart: Cart, id: string)
    ensures ItemCount(RemoveItem(cart, id)) == ItemCount(cart) - QuantityOf(cart, id)
    decreases |cart|
  {
    if |cart| > 0 {
      var init, x := cart[..|cart| - 1], cart[|cart| - 1];
      assert cart == init + [x];
      RemoveItemCount(init, id);
      RemoveItemSnoc(init, x, id);
      var ri := RemoveItem(init, id);
      var t := if Id(x) != id then [x] else [];
      SumAppend(ri, t, Quantity);
      if Id(x) != id { SumSingleton(x, Quantity); }
      assert QuantityOf(cart, id) == QuantityOf(init, id) + UnitsWithId(id)(x);
    }
  }

  lemma {:induction false} RemoveItemValid(cart: Cart, id: string)
    requires Valid(cart)
    ensures Valid(RemoveItem(cart, id))
    decreases |cart|
  {
    if |cart| > 0 {
      var init, x := cart[..|cart| - 1], cart[|cart| - 1];
      assert cart == init + [x];
      UniqueIdsSnoc(init, x);
      assert forall m :: m in init ==> m in cart;
      RemoveItemValid(init, id);
      RemoveItemSnoc(init, x, id);
      var ri := RemoveItem(init, id);
      if Id(x) != id {
        forall m | m in ri ensures Id(m) != Id(x) {
          assert m in init;
        }
        UniqueIdsSnoc(ri, x);
      }
    }
  }

  lemma RemoveAbsentItem(cart: Cart, id: string)
    requires !HasId(cart, id)
    ensures RemoveItem(cart, id) == cart
  {
    forall l | l in cart ensures WithoutId(id)(l) { }
    FilterAll(cart, WithoutId(id));
  }

  /** Setting a positive quantity on a valid cart gives that id exactly the
      new quantity and leaves every other id alone; a quantity of 0 or less
      is `removeItem`. */
  lemma UpdateQuantityLaws(cart: Cart, id: string, q: int)
    requires Valid(cart)
    ensures q <= 0 ==> UpdateQuantity(cart, id, q) == RemoveItem(cart, id)
    ensures Valid(UpdateQuantity(cart, id, q))
    ensures q > 0 && HasId(cart, id) ==> forall other ::
      QuantityOf(UpdateQuantity(cart, id, q), other) ==
        (if other == id then q else QuantityOf(cart, other))
    ensures q > 0 && HasId(cart, id) ==>
      ItemCount(UpdateQuantity(cart, id, q)) == ItemCount(cart) - QuantityOf(cart, id) + q
    ensures q > 0 && !HasId(cart, id) ==> UpdateQuantity(cart, id, q) == cart
  {
    var r := UpdateQuantity(cart, id, q);
    if q <= 0 {
      RemoveItemLaws(cart, id);
    } else if HasId(cart, id) {
      var l :| l in cart && Id(l) == id;
      var j :| 0 <= j < |cart| && cart[j] == l;
      UpdateOnlyLine(cart, id, q, j);
      UpdateExistingQuantities(cart, id, q, j);
      UpdateExistingValid(cart, id, q, j);
    } else {
      forall i | 0 <= i < |cart| ensures r[i] == cart[i] {
        assert cart[i] in cart;
      }
    }
  }

  /** In a valid cart the update touches only the line holding the id. */
  lemma UpdateOnlyLine(cart: Cart, id: string, q: int, j: nat)
    requires Valid(cart) && q > 0 && j < |cart| && Id(cart[j]) == id
    ensures UpdateQuantity(cart, id, q) == cart[j := cart[j].(quantity := q)]
  {
    forall i | 0 <= i < |cart| && i != j
      ensures Id(cart[i]) != id
    {
      if i < j { assert Id(cart[i]) != Id(cart[j]); } else { assert Id(cart[j]) != Id(cart[i]); }
    }
  }

  lemma UpdateExistingQuantities(cart: Cart, id: string, q: int, j: nat)
    requires Valid(cart) && q > 0 && j < |cart| && Id(cart[j]) == id
    requires UpdateQuantity(cart, id, q) == cart[j := cart[j].(quantity := q)]
    ensures forall other :: QuantityOf(UpdateQuantity(cart, id, q), other)
                            == (if other == id then q else QuantityOf(cart, other))
    ensures ItemCount(UpdateQuantity(cart, id, q)) == ItemCount(cart) - QuantityOf(cart, id) + q
  {
    var x := cart[j].(quantity := q);
    QuantityOfUnique(cart, j);
    SumUpdate(cart, j, x, Quantity);
    forall other
      ensures QuantityOf(cart[j := x], other) == (if other == id then q else QuantityOf(cart, other))
    {
      SumUpdate(cart, j, x, UnitsWithId(other));
    }
  }

  lemma UpdateExistingValid(cart: Cart, id: string, q: int, j: nat)
    requires Valid(cart) && q > 0 && j < |cart| && Id(cart[j]) == id
    requires UpdateQuantity(cart, id, q) == cart[j := cart[j].(quantity := q)]
    ensures Valid(UpdateQuantity(cart, id, q))
  {
    var r := cart[j := cart[j].(quantity := q)];
    assert forall i :: 0 <= i < |r| ==> Id(r[i]) == Id(cart[i]);
    forall m | m in r ensures m.quantity > 0 {
      var i :| 0 <= i < |r| && r[i] == m;
      assert cart[i] in cart;
    }
  }

  // ---------------------------------------------------------------------
  // Laws of the pricing fold
  // ---------------------------------------------------------------------

  /** What the discount saves on line k against its list charge. */
  function Saving(cart: Cart, k: nat): int
    requires k < |cart|
  {
    var l := cart[k];
    if IsDrink(l) && HasDiscountPrice(l.product) then
      DiscountedUnits(cart, k) * (l.product.price - l.product.discountedPrice.value)
    else 0
  }

  function SavingsUpTo(cart: Cart, n: nat): int
    requires n <= |cart|
  {
    if n == 0 then 0 else SavingsUpTo(cart, n - 1) + Saving(cart, n - 1)
  }

  /** The unit counts of a cart with no negative quantity are non-negative. */
  lemma CountsNonNegative(cart: Cart)
    requires NonNegativeQuantities(cart)
    ensures TotalDrinks(cart) >= 0 && MealsWithDiscountCount(cart) >= 0 && DiscountCap(cart) >= 0
    ensures forall k :: 0 <= k <= |cart| ==> DrinksBefore(cart, k) >= 0
  {
    SumNonNegative(cart, DrinkUnits);
    SumNonNegative(cart, EligibleMealUnits);
    forall k | 0 <= k <= |cart|
      ensures DrinksBefore(cart, k) >= 0
    {
      assert forall x :: x in cart[..k] ==> x in cart;
      SumNonNegative(cart[..k], DrinkUnits);
    }
  }

  /** The discount slots handed out to the first n lines are exactly the
      first min(cap, drink units so far) slots, and the units actually
      discounted never exceed them. */
  lemma {:induction false} AllocationPrefix(cart: Cart, n: nat)
    requires NonNegativeQuantities(cart) && n <= |cart|
    ensures AllocatedUpTo(cart, n) == Min(DiscountCap(cart), DrinksBefore(cart, n))
    ensures 0 <= DiscountedUpTo(cart, n) <= AllocatedUpTo(cart, n)
  {
    CountsNonNegative(cart);
    if n == 0 {
      assert cart[..0] == [];
    } else {
      var k := n - 1;
      AllocationPrefix(cart, k);
      SumStep(cart, k, DrinkUnits);
      assert cart[k] in cart;
    }
  }

  /** At most min(drink units, eligible meal units) drink units are charged
      the discounted price; the slots themselves are all handed out. */
  lemma DiscountBound(cart: Cart)
    requires NonNegativeQuantities(cart)
    ensures AllocatedUpTo(cart, |cart|) == Min(TotalDrinks(cart), MealsWithDiscountCount(cart))
    ensures 0 <= DiscountedUpTo(cart, |cart|) <= Min(TotalDrinks(cart), MealsWithDiscountCount(cart))
  {
    AllocationPrefix(cart, |cart|);
    assert cart[..|cart|] == cart;
  }

  /** Allocation follows cart order, unit by unit: unit u of drink line k is
      discounted exactly when fewer than `cap` drink units come before it in
      the cart, counting drinks that carry no discounted price. */
  lemma UnitDiscountedIffEarly(cart: Cart, k: nat, u: int)
    requires NonNegativeQuantities(cart)
    requires k < |cart| && IsDrink(cart[k]) && 0 <= u < cart[k].quantity
    ensures u < Allocated(cart, k) <==> DrinksBefore(cart, k) + u < DiscountCap(cart)
  {
    CountsNonNegative(cart);
  }

  /** A line never takes more slots than it has units. */
  lemma AllocatedWithinLine(cart: Cart, k: nat)
    requires NonNegativeQuantities(cart) && k < |cart|
    ensures 0 <= DiscountedUnits(cart, k) <= Allocated(cart, k) <= Max(0, cart[k].quantity)
  {
  }

  /** The charge of a line is its list charge less its saving. */
  lemma LineChargeIsListLessSaving(cart: Cart, k: nat)
    requires k < |cart|
    ensures LineCharge(cart, k) == ListCharge(cart[k]) - Saving(cart, k)
  {
    var l := cart[k];
    if IsDrink(l) && HasDiscountPrice(l.product) {
      var d, q, p, dp := Allocated(cart, k), l.quantity, l.product.price, l.product.discountedPrice.value;
      assert d * dp + (q - d) * p == p * q - d * (p - dp);
    }
  }

  /** The running total is the running list total less the running savings. */
  lemma {:induction false} TotalIsListLessSavings(cart: Cart, n: nat)
    requires n <= |cart|
    ensures TotalUpTo(cart, n) == Sum(cart[..n], ListCharge) - SavingsUpTo(cart, n)
  {
    if n == 0 {
      assert cart[..0] == [];
    } else {
      TotalIsListLessSavings(cart, n - 1);
      SumStep(cart, n - 1, ListCharge);
      LineChargeIsListLessSaving(cart, n - 1);
    }
  }

  /** Without any meal flagged `hasDiscountedDrinks`, every line, drink or
      not, is charged `price × quantity`. */
  lemma NoEligibleMealMeansListPrice(cart: Cart)
    requires NonNegativeQuantities(cart)
    requires forall l :: l in cart ==> !IsEligibleMeal(l)
    ensures forall k :: 0 <= k < |cart| ==> LineCharge(cart, k) == ListCharge(cart[k])
    ensures Total(cart) == ListTotal(cart)
  {
    SumZero(cart, EligibleMealUnits);
    CountsNonNegative(cart);
    assert DiscountCap(cart) == 0;
    assert forall k :: 0 <= k < |cart| ==> Saving(cart, k) == 0;
    forall k | 0 <= k < |cart|
      ensures LineCharge(cart, k) == ListCharge(cart[k])
    {
      LineChargeIsListLessSaving(cart, k);
    }
    ZeroSavings(cart, |cart|);
    TotalIsListLessSavings(cart, |cart|);
    assert cart[..|cart|] == cart;
  }

  lemma {:induction false} ZeroSavings(cart: Cart, n: nat)
    requires n <= |cart|
    requires forall k :: 0 <= k < |cart| ==> Saving(cart, k) == 0
    ensures SavingsUpTo(cart, n) == 0
  {
    if n > 0 { ZeroSavings(cart, n - 1); }
  }

  lemma {:induction false} SavingsNonNegative(cart: Cart, n: nat)
    requires NonNegativeQuantities(cart) && n <= |cart|
    requires forall l :: l in cart && IsDrink(l) && HasDiscountPrice(l.product) ==>
      l.product.discountedPrice.value <= l.product.price
    ensures SavingsUpTo(cart, n) >= 0
  {
    if n > 0 {
      SavingsNonNegative(cart, n - 1);
      var l := cart[n - 1];
      assert l in cart;
      if IsDrink(l) && HasDiscountPrice(l.product) {
        MulNonNegative(DiscountedUnits(cart, n - 1), l.product.price - l.product.discountedPrice.value);
      }
    }
  }

  lemma MulNonNegative(a: int, b: int)
    requires a >= 0 && b >= 0
    ensures a * b >= 0
  {
  }

  /** When no discounted price exceeds its list price, the discount can only
      lower the total below the list total. */
  lemma TotalAtMostListTotal(cart: Cart)
    requires NonNegativeQuantities(cart)
    requires forall l :: l in cart && IsDrink(l) && HasDiscountPrice(l.product) ==>
      l.product.discountedPrice.value <= l.product.price
    ensures Total(cart) <= ListTotal(cart)
  {
    SavingsNonNegative(cart, |cart|);
    TotalIsListLessSavings(cart, |cart|);
    assert cart[..|cart|] == cart;
  }

  /** With no negative quantity or price, the total is never negative. */
  lemma {:induction false} TotalNonNegative(cart: Cart, n: nat)
    requires NonNegativeQuantities(cart) && n <= |cart|
    requires forall l :: l in cart ==> l.product.price >= 0
    requires forall l :: l in cart && l.product.discountedPrice.Some? ==> l.product.discountedPrice.value >= 0
    ensures TotalUpTo(cart, n) >= 0
  {
    if n > 0 {
      TotalNonNegative(cart, n - 1);
      var k := n - 1;
      var l := cart[k];
      assert l in cart;
      AllocatedWithinLine(cart, k);
      if IsDrink(l) && HasDiscountPrice(l.product) {
        var d := Allocated(cart, k);
        MulNonNegative(d, l.product.discountedPrice.value);
        MulNonNegative(l.quantity - d, l.product.price);
      } else {
        MulNonNegative(l.product.price, l.quantity);
      }
    }
  }

  // ---------------------------------------------------------------------
  // Worked carts
  // ---------------------------------------------------------------------

  const PokeBowl := Product("poke", "Poke Bowl", 45, Some(Meal), None, None, true)
  const IcedTea := Product("tea", "Iced Tea", 20, Some(Drink), Some(20), Some(15), false)
  const Coffee := Product("coffee", "Coffee", 25, Some(Drink), Some(25), Some(18), false)
  const Soda := Product("soda", "Soda", 12, Some(Drink), Some(12), None, false)

  /** Unit counts of a cart assembled line by line. */
  lemma CountsSnoc(cart: Cart, x: CartLine)
    ensures TotalDrinks(cart + [x]) == TotalDrinks(cart) + DrinkUnits(x)
    ensures MealsWithDiscountCount(cart + [x]) == MealsWithDiscountCount(cart) + EligibleMealUnits(x)
  {
    assert (cart + [x])[..|cart|] == cart;
  }

  /** One eligible meal and two iced teas: only one tea is discounted, so the
      total is 45 + 15 + 20 = 80, not 45 + 2 × 15. */
  lemma OneMealTwoDrinks()
    ensures Total([CartLine(PokeBowl, 1), CartLine(IcedTea, 2)]) == 80
  {
    var m, t := CartLine(PokeBowl, 1), CartLine(IcedTea, 2);
    var cart := [m, t];
    CountsSnoc([], m);
    CountsSnoc([m], t);
    assert [] + [m] == [m] && [m] + [t] == cart;
    assert cart[..1] == [m];
    assert DiscountCap(cart) == 1;
    assert DrinksBefore(cart, 1) == 0;
    assert LineCharge(cart, 0) == 45;
    assert LineCharge(cart, 1) == 35;
    assert TotalUpTo(cart, 1) == 45;
  }

  /** A drink with no meal in the cart is charged its list price. */
  lemma DrinkWithoutMeal()
    ensures Total([CartLine(Coffee, 1)]) == 25
  {
    var c := CartLine(Coffee, 1);
    var cart := [c];
    CountsSnoc([], c);
    assert [] + [c] == cart;
    assert cart[..0] == [];
    assert DiscountCap(cart) == 0;
    assert LineCharge(cart, 0) == 25;
    assert TotalUpTo(cart, 1) == 25;
  }

  /** A drink without a discounted price still takes the only slot when it
      comes first, so the order of the drinks changes the total. */
  lemma UndiscountedDrinkTakesSlot()
    ensures Total([CartLine(PokeBowl, 1), CartLine(Soda, 1), CartLine(IcedTea, 1)]) == 77
    ensures Total([CartLine(PokeBowl, 1), CartLine(IcedTea, 1), CartLine(Soda, 1)]) == 72
  {
    var m, s, t := CartLine(PokeBowl, 1), CartLine(Soda, 1), CartLine(IcedTea, 1);
    var a := [m, s, t];
    CountsSnoc([], m);
    CountsSnoc([m], s);
    CountsSnoc([m, s], t);
    assert [] + [m] == [m] && [m] + [s] == [m, s] && [m, s] + [t] == a;
    assert a[..1] == [m] && a[..2] == [m, s];
    assert DiscountCap(a) == 1 && DrinksBefore(a, 2) == 1;
    assert LineCharge(a, 0) == 45 && LineCharge(a, 1) == 12 && LineCharge(a, 2) == 20;
    assert TotalUpTo(a, 1) == 45;
    assert TotalUpTo(a, 2) == 57;
    assert TotalUpTo(a, 3) == 77;
    var b := [m, t, s];
    CountsSnoc([m], t);
    CountsSnoc([m, t], s);
    assert [m] + [t] == [m, t] && [m, t] + [s] == b;
    assert b[..1] == [m] && b[..2] == [m, t];
    assert DiscountCap(b) == 1 && DrinksBefore(b, 1) == 0;
    assert LineCharge(b, 0) == 45 && LineCharge(b, 1) == 15 && LineCharge(b, 2) == 12;
    assert TotalUpTo(b, 1) == 45;
    assert TotalUpTo(b, 2) == 60;
    assert TotalUpTo(b, 3) == 72;
  }
}

=== FILE: checkout.dfy ===
/** The checkout of app/cart/page.tsx: turning the cart into an order
    request, and the per-unit drink price the cart page shows. */
module Checkout {
  import opened Wrappers
  import opened Folds
  import opened OrderStatus
  import opened Cart
  import opened Orders

  /** The signed-in account: its name and the optional `studentId` preference. */
  datatype User = User(name: string, studentIdPref: Option<string>)

  const NoStudentId := "N/A"

  /** `user.prefs?.studentId || 'N/A'`: an absent or empty preference gives "N/A". */
  function StudentIdOf(u: User): string {
    if u.studentIdPref.Some? && u.studentIdPref.value != "" then u.studentIdPref.value else NoStudentId
  }

  /** A cart line as an order line: name, quantity and LIST price. */
  function ToOrderItem(l: CartLine): OrderItem {
    OrderItem(l.product.name, l.quantity, l.product.price)
  }

  function ToOrderItems(cart: Cart): (r: seq<OrderItem>)
    ensures |r| == |cart|
    ensures forall i :: 0 <= i < |cart| ==>
      (r[i].name == cart[i].product.name && r[i].quantity == cart[i].quantity && r[i].price == cart[i].product.price)
  {
    seq(|cart|, i requires 0 <= i < |cart| => ToOrderItem(cart[i]))
  }

  /** The object passed to `createOrder`. */
  function CheckoutRequest(cart: Cart, u: User): OrderRequest {
    OrderRequest(u.name, StudentIdOf(u), ToOrderItems(cart), Total(cart), Received)
  }

  /** What a press of "Place Order" leads to: nothing (empty cart), the login
      page (no session), a placed order, or an alert after a store failure. */
  datatype Outcome = EmptyCart | LoginRequired | Placed(order: Order) | Failed(error: StoreError)

  datatype CheckoutResult = CheckoutResult(cart: Cart, store: Store, outcome: Outcome)

  /** `handleCheckout`: with a non-empty cart and a signed-in user, creates
      the order and clears the cart only when the store accepts it. */
  function HandleCheckout(cart: Cart, store: Store, user: Option<User>, newId: string,
                          draw: real, now: int, available: bool): (r: CheckoutResult)
    requires 0.0 <= draw < 1.0
    ensures |cart| == 0 ==> r == CheckoutResult(cart, store, EmptyCart)
    ensures |cart| > 0 && user.None? ==> r == CheckoutResult(cart, store, LoginRequired)
    ensures r.outcome.Placed? <==> |cart| > 0 && user.Some? && available && !HasOrder(store, newId)
    ensures !r.outcome.Placed? ==> r.cart == cart && r.store == store
    ensures r.outcome.Placed? ==>
      var o := r.outcome.order;
      && r.cart == []
      && r.store.orders == store.orders + [o]
      && o.studentName == user.value.name
      && o.studentId == StudentIdOf(user.value)
      && o.items == ToOrderItems(cart)
      && o.total == Total(cart)
      && o.status == Received
      && o.createdAt == now
  {
    if |cart| == 0 then CheckoutResult(cart, store, EmptyCart)
    else if user.None? then CheckoutResult(cart, store, LoginRequired)
    else
      match CreateOrder(store, CheckoutRequest(cart, user.value), newId, draw, now, available)
      case Success((store', o)) => CheckoutResult(ClearCart(), store', Placed(o))
      case Failure(e) => CheckoutResult(cart, store, Failed(e))
  }

  /** `hasMealWithDiscountedDrinks`. */
  predicate HasMealWithDiscountedDrinks(cart: Cart) {
    exists l :: l in cart && IsEligibleMeal(l)
  }

  /** The unit price shown beside line k: the list price, or the discounted
      price of a drink line while some eligible meal is in the cart. */
  function DisplayedUnitPrice(cart: Cart, k: nat): (r: int)
    requires k < |cart|
    ensures r == cart[k].product.price || (IsDrink(cart[k]) && HasDiscountPrice(cart[k].product)
                                           && r == cart[k].product.discountedPrice.value)
  {
    var l := cart[k];
    if IsDrink(l) && HasMealWithDiscountedDrinks(cart) && HasDiscountPrice(l.product)
    then l.product.discountedPrice.value
    else l.product.price
  }

  /** In a cart of positive quantities, the page's "some eligible meal" test
      agrees with the pricing fold's count of eligible meal units. */
  lemma HasMealIffEligibleUnits(cart: Cart)
    requires PositiveQuantities(cart)
    ensures HasMealWithDiscountedDrinks(cart) <==> MealsWithDiscountCount(cart) > 0
  {
    if HasMealWithDiscountedDrinks(cart) {
      var l :| l in cart && IsEligibleMeal(l);
      SumAtLeastTerm(cart, EligibleMealUnits, l);
    } else {
      SumZero(cart, EligibleMealUnits);
    }
  }

  /** The amount the page shows for a line, quantity times shown unit price,
      is what the cart charges for it exactly when the shown price is the
      list price or every unit of the line is discounted. Any discounted unit
      is shown at the discounted price, and when discounted prices do not
      exceed list prices the shown amount never overstates the charge. */
  lemma DisplayedAmountVersusCharge(cart: Cart, k: nat)
    requires NonNegativeQuantities(cart) && k < |cart|
    ensures cart[k].quantity * DisplayedUnitPrice(cart, k) == LineCharge(cart, k)
      <==> DisplayedUnitPrice(cart, k) == cart[k].product.price || DiscountedUnits(cart, k) == cart[k].quantity
    ensures DiscountedUnits(cart, k) > 0 ==> DisplayedUnitPrice(cart, k) == cart[k].product.discountedPrice.value
    ensures (HasDiscountPrice(cart[k].product) ==> cart[k].product.discountedPrice.value <= cart[k].product.price)
      ==> cart[k].quantity * DisplayedUnitPrice(cart, k) <= LineCharge(cart, k)
  {
    var l := cart[k];
    var q, p, d := l.quantity, l.product.price, DiscountedUnits(cart, k);
    AllocatedWithinLine(cart, k);
    if IsDrink(l) && HasDiscountPrice(l.product) {
      var dp := l.product.discountedPrice.value;
      assert LineCharge(cart, k) == d * dp + (q - d) * p;
      if HasMealWithDiscountedDrinks(cart) {
        assert DisplayedUnitPrice(cart, k) == dp;
        assert LineCharge(cart, k) - q * dp == (q - d) * (p - dp);
        if dp != p && d != q {
          assert q - d > 0;
          MulNonZero(q - d, p - dp);
        }
        if dp <= p {
          MulNonNegative(q - d, p - dp);
        }
      } else {
        NoMealNoDiscount(cart, k);
        assert d == 0;
      }
    }
  }

  /** With no eligible meal in the cart, a line takes no discount slot. */
  lemma NoMealNoDiscount(cart: Cart, k: nat)
    requires NonNegativeQuantities(cart) && k < |cart|
    requires !HasMealWithDiscountedDrinks(cart)
    ensures Allocated(cart, k) == 0
  {
    SumZero(cart, EligibleMealUnits);
    CountsNonNegative(cart);
  }

  lemma MulNonZero(a: int, b: int)
    requires a != 0 && b != 0
    ensures a * b != 0
  {
  }

  /** The shown price ignores the cap: with an eligible meal present, every
      discounted drink line shows its discounted price, even a line whose
      units are all charged the list price. Here the second iced tea is
      charged 20 although the page shows 15 for each. */
  lemma DisplayedPriceIgnoresCap()
    ensures var cart := [CartLine(PokeBowl, 1), CartLine(IcedTea, 2)];
      && DisplayedUnitPrice(cart, 1) == 15
      && Total(cart) == 80
      && Total(cart) != ListCharge(cart[0]) + cart[1].quantity * DisplayedUnitPrice(cart, 1)
  {
    var cart := [CartLine(PokeBowl, 1), CartLine(IcedTea, 2)];
    assert cart[0] in cart;
    OneMealTwoDrinks();
  }

  /** Every line of the placed order copies its cart line's name, quantity
      and list price, in cart order, and the order's units are the cart's. */
  lemma OrderItemsMirrorCart(cart: Cart)
    ensures Sum(ToOrderItems(cart), ItemQuantity) == ItemCount(cart)
    ensures Sum(ToOrderItems(cart), LineAmount) == ListTotal(cart)
  {
    ItemsSumsAgree(cart, |cart|);
    assert ToOrderItems(cart)[..|cart|] == ToOrderItems(cart);
    assert cart[..|cart|] == cart;
  }

  function ItemQuantity(item: OrderItem): int { item.quantity }

  lemma {:induction false} ItemsSumsAgree(cart: Cart, n: nat)
    requires n <= |cart|
    ensures Sum(ToOrderItems(cart)[..n], ItemQuantity) == Sum(cart[..n], Quantity)
    ensures Sum(ToOrderItems(cart)[..n], LineAmount) == Sum(cart[..n], ListCharge)
  {
    if n == 0 {
      assert ToOrderItems(cart)[..0] == [] && cart[..0] == [];
    } else {
      ItemsSumsAgree(cart, n - 1);
      SumStep(ToOrderItems(cart), n - 1, ItemQuantity);
      SumStep(ToOrderItems(cart), n - 1, LineAmount);
      SumStep(cart, n - 1, Quantity);
      SumStep(cart, n - 1, ListCharge);
    }
  }

  /** The order's line amounts add up to the LIST total; the order's total
      is lower by exactly the drink savings. In the one-meal, two-tea cart
      the lines show 45 + 40 = 85 while the order total is 80. */
  lemma OrderLinesVersusTotal(cart: Cart, u: User)
    ensures var req := CheckoutRequest(cart, u);
      Sum(req.items, LineAmount) == req.total + SavingsUpTo(cart, |cart|)
  {
    OrderItemsMirrorCart(cart);
    TotalIsListLessSavings(cart, |cart|);
    assert cart[..|cart|] == cart;
  }
}

=== FILE: dashboard.dfy ===
/** The staff dashboard of app/admin/dashboard/page.tsx: the four status
    buckets, the status each bucket's button asks for, today's orders, the
    relative time label, and what a status update does to the shown list. */
module Dashboard {
  import opened Wrappers
  import opened Folds
  import opened Numbers
  import opened OrderStatus
  import opened Orders

  /** The statuses that have a bucket (and a button) on the dashboard. */
  const BucketStatuses: seq<Status> := [Received, Preparing, Ready, TakenUnpaid]

  /** `receivedOrders`, `preparingOrders`, `readyOrders`, `takenOrders`. */
  function Bucket(orders: seq<Order>, s: Status): (r: seq<Order>)
    ensures forall o :: o in r <==> o in orders && o.status == s
  {
    Filter(orders, HasStatus(s))
  }

  /** The status the button on an order of status `s` asks for; `None` for
      `completed`, which has no bucket and no button. */
  function ButtonTarget(s: Status): Option<Status> {
    match s
    case Received => Some(Preparing)
    case Preparing => Some(Ready)
    case Ready => Some(TakenUnpaid)
    case TakenUnpaid => Some(Completed)
    case Completed => None
  }

  /** The dashboard issues exactly the lifecycle's forward edges: a button
      exists for a status exactly when the status is not terminal, and it
      asks for the legal successor. */
  lemma ButtonsIssueLegalEdges(s: Status, t: Status)
    ensures ButtonTarget(s) == Some(t) <==> LegalSuccessor(s, t)
    ensures ButtonTarget(s).None? <==> IsTerminal(s)
    ensures ButtonTarget(s).Some? <==> s in BucketStatuses
  {
  }

  /** The buckets are disjoint; every order not yet completed is in the
      bucket of its status and a completed order is in none of them; each
      bucket keeps the order in which the orders were listed. */
  lemma BucketsPartition(orders: seq<Order>, more: seq<Order>, s: Status, t: Status)
    ensures s != t ==> forall o :: o in Bucket(orders, s) ==> o !in Bucket(orders, t)
    ensures forall o :: o in orders && o.status != Completed ==>
      o.status in BucketStatuses && o in Bucket(orders, o.status)
    ensures forall o, b :: o in orders && o.status == Completed && b in BucketStatuses ==>
      o !in Bucket(orders, b)
    ensures Bucket(orders + more, s) == Bucket(orders, s) + Bucket(more, s)
  {
    FilterAppend(orders, more, HasStatus(s));
    forall o | o in orders && o.status != Completed
      ensures o.status in BucketStatuses
    {
      assert o.status == BucketStatuses[Rank(o.status)];
    }
  }

  /** `todayOrders`: the orders whose creation falls on the same calendar
      day as `now`; `day` maps a timestamp to its local calendar day. */
  function TodayOrders(orders: seq<Order>, now: int, day: int -> int): (r: seq<Order>)
    ensures forall o :: o in r <==> o in orders && day(o.createdAt) == day(now)
    ensures |r| <= |orders|
  {
    Filter(orders, (o: Order) => day(o.createdAt) == day(now))
  }

  /** A relative time label, before its text is formatted. */
  datatype RelativeTime = JustNow | MinutesAgo(minutes: int) | HoursAgo(hours: int)

  /** `formatTime`: whole minutes elapsed (rounded down); under one minute,
      including any future timestamp, is "Just now"; under an hour counts
      minutes; anything longer counts whole hours. */
  function FormatTime(createdAt: int, now: int): (r: RelativeTime)
    ensures r == JustNow <==> now - createdAt < MsPerMinute
    ensures r.MinutesAgo? ==>
      (1 <= r.minutes < 60 && r.minutes * MsPerMinute <= now - createdAt < (r.minutes + 1) * MsPerMinute)
    ensures r.HoursAgo? ==>
      (r.hours >= 1 && r.hours * 60 * MsPerMinute <= now - createdAt < (r.hours + 1) * 60 * MsPerMinute)
  {
    var diffMins := (now - createdAt) / MsPerMinute;
    if diffMins < 1 then JustNow
    else if diffMins < 60 then MinutesAgo(diffMins)
    else HoursAgo(diffMins / 60)
  }

  /** The shown list and the store after `handleStatusUpdate`. */
  datatype UpdateView = UpdateView(store: Store, shown: seq<Order>, alerted: bool)

  /** `handleStatusUpdate`: a failed update (the backend is down or the
      order is gone) raises an alert and leaves the store and the shown list
      alone. A successful one stores the new status on that order and is
      followed by a refresh to the newest page of orders; when the refresh
      fails the old list stays on screen. */
  function HandleStatusUpdate(store: Store, shown: seq<Order>, id: string, target: Status,
                              now: int, available: bool, refreshAvailable: bool): (r: UpdateView)
    ensures r.alerted <==> !available || !HasOrder(store, id)
    ensures r.alerted ==> r.store == store && r.shown == shown
    ensures !r.alerted ==> r.store == UpdateOrderStatus(store, id, target, now, available).value.0
    ensures !r.alerted ==>
      |r.store.orders| == |store.orders| && StatusShown(r.store.orders, id, target, now)
    ensures !r.alerted && !refreshAvailable ==> r.shown == shown
    ensures !r.alerted && refreshAvailable ==> NewestPageOf(r.shown, r.store.orders)
    ensures !r.alerted && refreshAvailable && |store.orders| <= DefaultListLimit ==>
      StatusShown(r.shown, id, target, now)
  {
    match UpdateOrderStatus(store, id, target, now, available)
    case Failure(_) => UpdateView(store, shown, true)
    case Success((store', o)) =>
      UpdatedOrderStored(store, id, target, now);
      match GetAllOrders(store', refreshAvailable)
      case Success(listed) =>
        if |store.orders| <= DefaultListLimit then
          SameMembers(listed, store'.orders);
          UpdateView(store', listed, false)
        else UpdateView(store', listed, false)
      case Failure(_) => UpdateView(store', shown, false)
  }

  /** Pressing the button on a stored order moves that order one legal
      step along the lifecycle: the update goes through, and reading the
      order back gives it with the successor status, the press time and
      every other field as before. */
  lemma ButtonPressAdvances(store: Store, shown: seq<Order>, o: Order, now: int, refreshAvailable: bool)
    requires UniqueIds(store) && o in store.orders && !IsTerminal(o.status)
    ensures ButtonTarget(o.status).Some?
    ensures var t := ButtonTarget(o.status).value;
      var r := HandleStatusUpdate(store, shown, o.id, t, now, true, refreshAvailable);
      && !r.alerted
      && LegalSuccessor(o.status, t)
      && GetOrderById(r.store, o.id, true) == Success(o.(status := t, updatedAt := Some(now)))
  {
    var t := ButtonTarget(o.status).value;
    ButtonsIssueLegalEdges(o.status, t);
    var i :| 0 <= i < |store.orders| && store.orders[i] == o;
    UpdateThenGet(store, o.id, t, now);
    var j := IndexOf(store.orders, o.id).value;
    assert j == i;
  }

  /** Some order in `orders` carries id `id` with the status and update
      time a status update at `now` wrote. */
  predicate StatusShown(orders: seq<Order>, id: string, target: Status, now: int) {
    exists o :: o in orders && o.id == id && o.status == target && o.updatedAt == Some(now)
  }

  lemma UpdatedOrderStored(store: Store, id: string, target: Status, now: int)
    requires HasOrder(store, id)
    ensures var r := UpdateOrderStatus(store, id, target, now, true);
      r.Success? && r.value.1 in r.value.0.orders && StatusShown(r.value.0.orders, id, target, now)
  {
    var r := UpdateOrderStatus(store, id, target, now, true);
    var j :| 0 <= j < |store.orders| && store.orders[j].id == id
             && r.value.0.orders[j] == r.value.1
             && r.value.1 == store.orders[j].(status := target, updatedAt := Some(now));
    assert r.value.0.orders[j] in r.value.0.orders;
  }
}

=== FILE: folds.dfy ===
/** Generic folds over sequences: sums, filters and counts.
    Every fold is defined from the END of the sequence, so that it reads as
    the left-to-right `reduce`/`forEach` it models and extends naturally from
    a prefix `s[..i]` to `s[..i+1]`. */
module Folds {

  /** `s.reduce((acc, x) => acc + f(x), 0)`. */
  function Sum<T>(s: seq<T>, f: T -> int): int
    decreases |s|
  {
    if |s| == 0 then 0 else Sum(s[..|s| - 1], f) + f(s[|s| - 1])
  }

  /** `s.filter(p)`: the elements satisfying `p`, in their original order. */
  function Filter<T(!new)>(s: seq<T>, p: T -> bool): (r: seq<T>)
    ensures |r| <= |s|
    ensures forall x :: x in r <==> x in s && p(x)
    decreases |s|
  {
    if |s| == 0 then []
    else
      var init := s[..|s| - 1];
      assert s == init + [s[|s| - 1]];
      Filter(init, p) + (if p(s[|s| - 1]) then [s[|s| - 1]] else [])
  }

  /** The number of elements satisfying `p`. */
  function Count<T(!new)>(s: seq<T>, p: T -> bool): nat {
    |Filter(s, p)|
  }

  /** Sums split over concatenation. */
  lemma {:induction false} SumAppend<T>(a: seq<T>, b: seq<T>, f: T -> int)
    ensures Sum(a + b, f) == Sum(a, f) + Sum(b, f)
    decreases |b|
  {
    if |b| == 0 {
      assert a + b == a;
    } else {
      var b' := b[..|b| - 1];
      assert (a + b)[..|a + b| - 1] == a + b';
      SumAppend(a, b', f);
    }
  }

  /** The sum of a one-element sequence. */
  lemma SumSingleton<T>(x: T, f: T -> int)
    ensures Sum([x], f) == f(x)
  {
    assert [x][..0] == [];
  }

  /** One step of a left-to-right sum. */
  lemma SumStep<T>(s: seq<T>, i: nat, f: T -> int)
    requires i < |s|
    ensures Sum(s[..i + 1], f) == Sum(s[..i], f) + f(s[i])
  {
    assert s[..i + 1][..i] == s[..i];
  }

  /** A sum of non-negative terms is non-negative. */
  lemma {:induction false} SumNonNegative<T>(s: seq<T>, f: T -> int)
    requires forall x :: x in s ==> f(x) >= 0
    ensures Sum(s, f) >= 0
    decreases |s|
  {
    if |s| > 0 {
      assert forall x :: x in s[..|s| - 1] ==> x in s;
      SumNonNegative(s[..|s| - 1], f);
      assert s[|s| - 1] in s;
    }
  }

  /** A non-negative sum is at least any one of its terms. */
  lemma {:induction false} SumAtLeastTerm<T>(s: seq<T>, f: T -> int, x: T)
    requires forall y :: y in s ==> f(y) >= 0
    requires x in s
    ensures Sum(s, f) >= f(x)
    decreases |s|
  {
    var init := s[..|s| - 1];
    assert s == init + [s[|s| - 1]];
    assert forall y :: y in init ==> y in s;
    SumNonNegative(init, f);
    if x != s[|s| - 1] {
      SumAtLeastTerm(init, f, x);
    }
  }

  /** Two functions that agree on every element have the same sum. */
  lemma {:induction false} SumCongruent<T>(s: seq<T>, f: T -> int, g: T -> int)
    requires forall x :: x in s ==> f(x) == g(x)
    ensures Sum(s, f) == Sum(s, g)
    decreases |s|
  {
    if |s| > 0 {
      assert forall x :: x in s[..|s| - 1] ==> x in s;
      SumCongruent(s[..|s| - 1], f, g);
      assert s[|s| - 1] in s;
    }
  }

  /** A sum of zero terms is zero. */
  lemma {:induction false} SumZero<T>(s: seq<T>, f: T -> int)
    requires forall x :: x in s ==> f(x) == 0
    ensures Sum(s, f) == 0
    decreases |s|
  {
    if |s| > 0 {
      assert forall x :: x in s[..|s| - 1] ==> x in s;
      SumZero(s[..|s| - 1], f);
      assert s[|s| - 1] in s;
    }
  }

  /** Replacing one element changes a sum by the difference of its terms. */
  lemma {:induction false} SumUpdate<T>(s: seq<T>, j: nat, x: T, f: T -> int)
    requires j < |s|
    ensures Sum(s[j := x], f) == Sum(s, f) - f(s[j]) + f(x)
    decreases |s|
  {
    var n := |s| - 1;
    if j < n {
      assert s[j := x][..n] == s[..n][j := x];
      SumUpdate(s[..n], j, x, f);
    } else {
      assert s[j := x][..n] == s[..n];
    }
  }

  /** Filtering distributes over concatenation, which is what "in input order" means. */
  lemma {:induction false} FilterAppend<T(!new)>(a: seq<T>, b: seq<T>, p: T -> bool)
    ensures Filter(a + b, p) == Filter(a, p) + Filter(b, p)
    decreases |b|
  {
    if |b| == 0 {
      assert a + b == a;
    } else {
      var b' := b[..|b| - 1];
      assert (a + b)[..|a + b| - 1] == a + b';
      FilterAppend(a, b', p);
    }
  }

  /** Sequences with the same multiset have the same members. */
  lemma SameMembers<T>(a: seq<T>, b: seq<T>)
    requires multiset(a) == multiset(b)
    ensures forall x :: x in a <==> x in b
  {
    forall x ensures x in a <==> x in b {
      assert x in a <==> x in multiset(a);
      assert x in b <==> x in multiset(b);
    }
  }

  /** Filtering one more element appends it when it qualifies. */
  lemma FilterSnoc<T(!new)>(s: seq<T>, x: T, p: T -> bool)
    ensures Filter(s + [x], p) == Filter(s, p) + (if p(x) then [x] else [])
  {
    assert (s + [x])[..|s|] == s;
  }

  /** Filters by two complementary predicates split the sequence exactly:
      every element lands in exactly one of the two results. */
  lemma {:induction false} FilterPartition<T(!new)>(s: seq<T>, p: T -> bool, q: T -> bool)
    requires forall x :: x in s ==> (p(x) <==> !q(x))
    ensures multiset(Filter(s, p)) + multiset(Filter(s, q)) == multiset(s)
    decreases |s|
  {
    if |s| > 0 {
      var init, last := s[..|s| - 1], s[|s| - 1];
      assert s == init + [last];
      assert last in s;
      assert forall x :: x in init ==> x in s;
      FilterPartition(init, p, q);
      FilterSnoc(init, last, p);
      FilterSnoc(init, last, q);
      if p(last) {
        MultisetSnoc(Filter(init, p), last);
        assert Filter(s, q) == Filter(init, q);
      } else {
        MultisetSnoc(Filter(init, q), last);
        assert Filter(s, p) == Filter(init, p);
      }
      MultisetSnoc(init, last);
    }
  }

  /** Filtering by a predicate every element satisfies changes nothing. */
  lemma {:induction false} FilterAll<T(!new)>(s: seq<T>, p: T -> bool)
    requires forall x :: x in s ==> p(x)
    ensures Filter(s, p) == s
    decreases |s|
  {
    if |s| > 0 {
      var init, last := s[..|s| - 1], s[|s| - 1];
      assert s == init + [last];
      assert last in s;
      assert forall x :: x in init ==> x in s;
      FilterAll(init, p);
      FilterSnoc(init, last, p);
    }
  }

  lemma MultisetSnoc<T>(s: seq<T>, x: T)
    ensures multiset(s + [x]) == multiset(s) + multiset{x}
  {
  }

  lemma {:induction false} SumPartition<T(!new)>(s: seq<T>, f: T -> int, p: T -> bool, q: T -> bool)
    requires forall x :: x in s ==> (p(x) <==> !q(x))
    ensures Sum(s, f) == Sum(Filter(s, p), f) + Sum(Filter(s, q), f)
    decreases |s|
  {
    if |s| > 0 {
      var init, last := s[..|s| - 1], s[|s| - 1];
      assert s == init + [last];
      assert last in s;
      assert forall x :: x in init ==> x in s;
      SumPartition(init, f, p, q);
      FilterSnoc(init, last, p);
      FilterSnoc(init, last, q);
      SumSingleton(last, f);
      if p(last) {
        SumAppend(Filter(init, p), [last], f);
        assert Filter(s, q) == Filter(init, q);
      } else {
        SumAppend(Filter(init, q), [last], f);
        assert Filter(s, p) == Filter(init, p);
      }
    }
  }

  /** A weaker predicate counts at least as many elements. */
  lemma {:induction false} CountMonotone<T(!new)>(s: seq<T>, p: T -> bool, q: T -> bool)
    requires forall x :: x in s && p(x) ==> q(x)
    ensures Count(s, p) <= Count(s, q)
    decreases |s|
  {
    if |s| > 0 {
      var init, last := s[..|s| - 1], s[|s| - 1];
      assert s == init + [last];
      assert last in s;
      assert forall x :: x in init ==> x in s;
      CountMonotone(init, p, q);
      FilterSnoc(init, last, p);
      FilterSnoc(init, last, q);
    }
  }

  /** A sequence none of whose elements satisfies `p` counts zero. */
  lemma {:induction false} CountNone<T(!new)>(s: seq<T>, p: T -> bool)
    requires forall x :: x in s ==> !p(x)
    ensures Count(s, p) == 0
    decreases |s|
  {
    if |s| > 0 {
      var init, last := s[..|s| - 1], s[|s| - 1];
      assert s == init + [last];
      assert last in s;
      assert forall x :: x in init ==> x in s;
      CountNone(init, p);
      FilterSnoc(init, last, p);
    }
  }
}

=== FILE: numbers.dfy ===
/** Small arithmetic shared by the pricing, the paging and the time labels. */
module Numbers {

  function Min(a: int, b: int): int { if a <= b then a else b }

  function Max(a: int, b: int): int { if a >= b then a else b }

  /** Milliseconds in a minute: the unit of a `getTime()` difference. */
  const MsPerMinute := 60000
}

=== FILE: order_status.dfy ===
/** The five order statuses of lib/orders.ts and the forward lifecycle
    received -> preparing -> ready -> taken-unpaid -> completed.
    The store's update call does not consult this lifecycle; it is stated
    here so that the staff dashboard's buttons can be checked against it. */
module OrderStatus {
  import opened Wrappers

  datatype Status = Received | Preparing | Ready | TakenUnpaid | Completed

  /** The string stored in the `status` attribute of an order document. */
  function Name(s: Status): string {
    match s
    case Received => "received"
    case Preparing => "preparing"
    case Ready => "ready"
    case TakenUnpaid => "taken-unpaid"
    case Completed => "completed"
  }

  /** Reads a stored status string back; `None` for any other string. */
  function Parse(t: string): (r: Option<Status>)
    ensures r.Some? ==> Name(r.value) == t
  {
    if t == "received" then Some(Received)
    else if t == "preparing" then Some(Preparing)
    else if t == "ready" then Some(Ready)
    else if t == "taken-unpaid" then Some(TakenUnpaid)
    else if t == "completed" then Some(Completed)
    else None
  }

  /** The stored names, in the order the statistics object lists its keys. */
  const AllNames: seq<string> := ["received", "preparing", "ready", "taken-unpaid", "completed"]

  /** Name and Parse are inverse, and the five names are exactly AllNames. */
  lemma NameParseRoundTrip(s: Status, t: string)
    ensures Parse(Name(s)) == Some(s)
    ensures Name(s) in AllNames
    ensures Parse(t).Some? <==> t in AllNames
  {
  }

  /** Position along the lifecycle. */
  function Rank(s: Status): nat {
    match s
    case Received => 0
    case Preparing => 1
    case Ready => 2
    case TakenUnpaid => 3
    case Completed => 4
  }

  /** `t` is the single forward step from `s`. */
  predicate LegalSuccessor(s: Status, t: Status) {
    Rank(t) == Rank(s) + 1
  }

  predicate IsTerminal(s: Status) {
    s == Completed
  }

  /** The terminal status has no legal successor; every other status has
      exactly one, and no legal step goes backwards or stays put. */
  lemma LifecycleShape(s: Status, t: Status, u: Status)
    ensures IsTerminal(s) ==> !LegalSuccessor(s, t)
    ensures LegalSuccessor(s, t) && LegalSuccessor(s, u) ==> t == u
    ensures !IsTerminal(s) ==> exists v :: LegalSuccessor(s, v)
    ensures LegalSuccessor(s, t) ==> s != t && !LegalSuccessor(t, s)
  {
    if !IsTerminal(s) {
      var v := match s
        case Received => Preparing
        case Preparing => Ready
        case Ready => TakenUnpaid
        case _ => Completed;
      assert LegalSuccessor(s, v);
    }
  }
}

=== FILE: orders.dfy ===
/** The order records and data-access calls of lib/orders.ts, over an
    in-memory store. The store keeps documents in insertion order; every
    listing query returns them newest first. Items are kept as values: the
    JSON encoding on write and decoding on read are taken as inverse. */
module Orders {
  import opened Wrappers
  import opened Folds
  import opened Numbers
  import opened OrderStatus

  datatype OrderItem = OrderItem(name: string, quantity: int, price: int)

  /** The amount the order views print beside a line: `price × quantity`. */
  function LineAmount(item: OrderItem): int {
    item.price * item.quantity
  }

  /** A stored order. Timestamps are milliseconds since the epoch;
      `updatedAt` is absent until the first status update. */
  datatype Order = Order(
    id: string,
    orderNumber: int,
    studentName: string,
    studentId: string,
    items: seq<OrderItem>,
    total: int,
    status: Status,
    createdAt: int,
    updatedAt: Option<int>)

  /** The argument of `createOrder`: an order without id, number or creation time. */
  datatype OrderRequest = OrderRequest(
    studentName: string,
    studentId: string,
    items: seq<OrderItem>,
    total: int,
    status: Status)

  /** Why a store call fails: an unknown document id, a document id already
      taken, or the store being unreachable. */
  datatype StoreError = NotFound | Conflict | Unavailable

  datatype Store = Store(orders: seq<Order>)

  predicate HasOrder(store: Store, id: string) {
    exists o :: o in store.orders && o.id == id
  }

  /** Document ids are unique within the store. */
  predicate UniqueIds(store: Store) {
    forall i, j :: 0 <= i < j < |store.orders| ==> store.orders[i].id != store.orders[j].id
  }

  /** Position of the document with the given id. */
  function IndexOf(orders: seq<Order>, id: string): (r: Option<nat>)
    ensures r.Some? ==> r.value < |orders| && orders[r.value].id == id
    ensures r.Some? ==> forall k :: 0 <= k < r.value ==> orders[k].id != id
    ensures r.None? ==> forall o :: o in orders ==> o.id != id
  {
    if |orders| == 0 then None
    else if orders[0].id == id then Some(0)
    else
      match IndexOf(orders[1..], id)
      case None => None
      case Some(k) => Some(k + 1)
  }

  const MinOrderNumber := 1000
  const MaxOrderNumber := 9999

  /** `Math.floor(Math.random() * 9000) + 1000`, for a draw in [0, 1). */
  function OrderNumberFor(draw: real): (n: int)
    requires 0.0 <= draw < 1.0
    ensures MinOrderNumber <= n <= MaxOrderNumber
  {
    (draw * 9000.0).Floor + 1000
  }

  /** `createOrder`: stores a new document with a drawn order number, the
      request's student and items and total, status `received` whatever the
      request says, and the current time; returns the stored order. */
  function CreateOrder(store: Store, req: OrderRequest, newId: string, draw: real,
                       now: int, available: bool): (r: Result<(Store, Order), StoreError>)
    requires 0.0 <= draw < 1.0
    ensures !available ==> r == Failure(Unavailable)
    ensures available && HasOrder(store, newId) ==> r == Failure(Conflict)
    ensures available && !HasOrder(store, newId) ==> r.Success?
    ensures r.Success? ==>
      var (store', o) := r.value;
      && store'.orders == store.orders + [o]
      && o.id == newId
      && MinOrderNumber <= o.orderNumber <= MaxOrderNumber
      && o.studentName == req.studentName
      && o.studentId == req.studentId
      && o.items == req.items
      && o.total == req.total
      && o.status == Received
      && o.createdAt == now
      && o.updatedAt == None
    ensures r.Failure? ==> r.error != NotFound
  {
    if !available then Failure(Unavailable)
    else if IndexOf(store.orders, newId).Some? then Failure(Conflict)
    else
      var o := Order(newId, OrderNumberFor(draw), req.studentName, req.studentId,
                     req.items, req.total, Received, now, None);
      Success((Store(store.orders + [o]), o))
  }

  /** `updateOrderStatus`: writes the new status and the update time on the
      document with that id, whatever its current status is. */
  function UpdateOrderStatus(store: Store, id: string, status: Status,
                             now: int, available: bool): (r: Result<(Store, Order), StoreError>)
    ensures !available ==> r == Failure(Unavailable)
    ensures available && !HasOrder(store, id) ==> r == Failure(NotFound)
    ensures available && HasOrder(store, id) ==> r.Success?
    ensures r.Success? ==>
      var (store', o) := r.value;
      && |store'.orders| == |store.orders|
      && exists j :: 0 <= j < |store.orders| && store.orders[j].id == id
           && store'.orders[j] == o
           && o == store.orders[j].(status := status, updatedAt := Some(now))
           && forall k :: 0 <= k < |store.orders| && k != j ==> store'.orders[k] == store.orders[k]
  {
    if !available then Failure(Unavailable)
    else
      match IndexOf(store.orders, id)
      case None => Failure(NotFound)
      case Some(j) =>
        var o := store.orders[j].(status := status, updatedAt := Some(now));
        Success((Store(store.orders[j := o]), o))
  }

  /** `getOrderById`: the document with that id, found whenever it is stored. */
  function GetOrderById(store: Store, id: string, available: bool): (r: Result<Order, StoreError>)
    ensures !available ==> r == Failure(Unavailable)
    ensures available && !HasOrder(store, id) ==> r == Failure(NotFound)
    ensures available && HasOrder(store, id) ==> r.Success?
    ensures r.Success? ==>
      exists j :: 0 <= j < |store.orders| && store.orders[j] == r.value && r.value.id == id
        && forall k :: 0 <= k < j ==> store.orders[k].id != id
  {
    if !available then Failure(Unavailable)
    else
      match IndexOf(store.orders, id)
      case None => Failure(NotFound)
      case Some(j) => Success(store.orders[j])
  }

  // ---------------------------------------------------------------------
  // Listing, newest first
  // ---------------------------------------------------------------------

  predicate NewestFirst(orders: seq<Order>) {
    forall i, j :: 0 <= i < j < |orders| ==> orders[i].createdAt >= orders[j].createdAt
  }

  /** Inserts one order into a newest-first listing. */
  function InsertNewest(o: Order, sorted: seq<Order>): seq<Order>
    decreases |sorted|
  {
    if |sorted| == 0 || o.createdAt >= sorted[0].createdAt then [o] + sorted
    else [sorted[0]] + InsertNewest(o, sorted[1..])
  }

  /** Inserting into a newest-first list keeps it newest first and adds
      exactly the one order. */
  lemma {:induction false} InsertNewestLaws(o: Order, sorted: seq<Order>)
    requires NewestFirst(sorted)
    ensures NewestFirst(InsertNewest(o, sorted))
    ensures multiset(InsertNewest(o, sorted)) == multiset(sorted) + multiset{o}
    decreases |sorted|
  {
    if |sorted| > 0 && o.createdAt < sorted[0].createdAt {
      var head, tail := sorted[0], sorted[1..];
      assert sorted == [head] + tail;
      HeadIsNewest(sorted);
      InsertNewestLaws(o, tail);
      var rest := InsertNewest(o, tail);
      BoundCarries(o, head, tail, rest);
      ConsNewestFirst(head, rest);
    } else {
      if |sorted| > 0 {
        HeadIsNewest(sorted);
      }
      ConsNewestFirst(o, sorted);
    }
  }

  /** The head of a newest-first list is at least as new as everything,
      and its tail is newest first too. */
  lemma HeadIsNewest(sorted: seq<Order>)
    requires NewestFirst(sorted) && |sorted| > 0
    ensures forall x :: x in sorted ==> x.createdAt <= sorted[0].createdAt
    ensures forall x :: x in sorted[1..] ==> x.createdAt <= sorted[0].createdAt
    ensures NewestFirst(sorted[1..])
  {
    forall x | x in sorted ensures x.createdAt <= sorted[0].createdAt {
      var k :| 0 <= k < |sorted| && sorted[k] == x;
      if k > 0 {
        assert sorted[0].createdAt >= sorted[k].createdAt;
      }
    }
    assert forall x :: x in sorted[1..] ==> x in sorted;
  }

  lemma BoundCarries(o: Order, head: Order, tail: seq<Order>, rest: seq<Order>)
    requires multiset(rest) == multiset(tail) + multiset{o}
    requires o.createdAt < head.createdAt
    requires forall x :: x in tail ==> x.createdAt <= head.createdAt
    ensures forall x :: x in rest ==> x.createdAt <= head.createdAt
  {
    forall x | x in rest ensures x.createdAt <= head.createdAt {
      assert x in multiset(rest);
      if x != o {
        assert x in multiset(tail);
      }
    }
  }

  lemma ConsNewestFirst(head: Order, rest: seq<Order>)
    requires NewestFirst(rest)
    requires forall x :: x in rest ==> x.createdAt <= head.createdAt
    ensures NewestFirst([head] + rest)
  {
    var r := [head] + rest;
    forall i, j | 0 <= i < j < |r| ensures r[i].createdAt >= r[j].createdAt {
      assert r[j] == rest[j - 1];
      assert rest[j - 1] in rest;
      if i > 0 {
        assert r[i] == rest[i - 1];
      }
    }
  }

  function SortNewestFirst(orders: seq<Order>): (r: seq<Order>)
    ensures NewestFirst(r)
    ensures multiset(r) == multiset(orders)
    decreases |orders|
  {
    if |orders| == 0 then []
    else
      assert orders == [orders[0]] + orders[1..];
      InsertNewestLaws(orders[0], SortNewestFirst(orders[1..]));
      InsertNewest(orders[0], SortNewestFirst(orders[1..]))
  }

  function HasStatus(s: Status): Order -> bool {
    (o: Order) => o.status == s
  }

  function ForStudent(studentId: string): Order -> bool {
    (o: Order) => o.studentId == studentId
  }

  /** How many documents a listing returns when the query sets no limit. */
  const DefaultListLimit := 25

  /** `page` is what a newest-first listing of `orders` without a limit
      returns: the newest `DefaultListLimit` of them (all of them when there
      are no more), newest first. */
  predicate NewestPageOf(page: seq<Order>, orders: seq<Order>) {
    && NewestFirst(page)
    && |page| == Min(|orders|, DefaultListLimit)
    && multiset(page) <= multiset(orders)
    && forall o, x :: o in orders && o !in page && x in page ==> o.createdAt <= x.createdAt
  }

  /** The first page of `orders` sorted newest first. */
  function FirstPage(orders: seq<Order>): (r: seq<Order>)
    ensures NewestPageOf(r, orders)
    ensures forall o :: o in r ==> o in orders
    ensures |orders| <= DefaultListLimit ==> multiset(r) == multiset(orders)
  {
    var sorted := SortNewestFirst(orders);
    var k := Min(|orders|, DefaultListLimit);
    assert |sorted| == |multiset(sorted)| == |multiset(orders)| == |orders|;
    assert k == |sorted| ==> sorted[..k] == sorted;
    PrefixOfSorted(sorted, orders, k);
    sorted[..k]
  }

  /** A prefix of a newest-first sort of `orders` is a sub-multiset of
      them, and nothing left out is newer than anything kept. */
  lemma PrefixOfSorted(sorted: seq<Order>, orders: seq<Order>, k: nat)
    requires NewestFirst(sorted) && multiset(sorted) == multiset(orders) && k <= |sorted|
    ensures NewestFirst(sorted[..k])
    ensures multiset(sorted[..k]) <= multiset(orders)
    ensures forall o :: o in sorted[..k] ==> o in orders
    ensures forall o, x :: o in orders && o !in sorted[..k] && x in sorted[..k] ==> o.createdAt <= x.createdAt
  {
    var p := sorted[..k];
    assert sorted == p + sorted[k..];
    assert multiset(sorted) == multiset(p) + multiset(sorted[k..]);
    SameMembers(sorted, orders);
    forall o | o in p ensures o in orders {
      assert o in sorted;
    }
    forall o, x | o in orders && o !in p && x in p ensures o.createdAt <= x.createdAt {
      var j :| 0 <= j < |sorted| && sorted[j] == o;
      var i :| 0 <= i < k && p[i] == x;
      assert j >= k;
    }
  }

  /** `getAllOrders`: the newest page of the stored orders, newest first. */
  function GetAllOrders(store: Store, available: bool): (r: Result<seq<Order>, StoreError>)
    ensures !available <==> r.Failure?
    ensures r.Success? ==> NewestPageOf(r.value, store.orders)
    ensures r.Success? && |store.orders| <= DefaultListLimit ==> multiset(r.value) == multiset(store.orders)
  {
    if !available then Failure(Unavailable) else Success(FirstPage(store.orders))
  }

  /** `getOrdersByStatus`: the newest page of the stored orders with that
      status; all of them when there are at most a page of them. */
  function GetOrdersByStatus(store: Store, s: Status, available: bool): (r: Result<seq<Order>, StoreError>)
    ensures !available <==> r.Failure?
    ensures r.Success? ==> NewestPageOf(r.value, Filter(store.orders, HasStatus(s)))
    ensures r.Success? ==> forall o :: o in r.value ==> o in store.orders && o.status == s
    ensures r.Success? && Count(store.orders, HasStatus(s)) <= DefaultListLimit ==>
      multiset(r.value) == multiset(Filter(store.orders, HasStatus(s)))
      && forall o :: o in r.value <==> o in store.orders && o.status == s
  {
    if !available then Failure(Unavailable)
    else
      var all := Filter(store.orders, HasStatus(s));
      var r := FirstPage(all);
      if |all| <= DefaultListLimit then
        SameMembers(r, all);
        Success(r)
      else Success(r)
  }

  /** `getOrdersByStudent`: the newest page of the stored orders of that
      student; all of them when there are at most a page of them. */
  function GetOrdersByStudent(store: Store, studentId: string, available: bool): (r: Result<seq<Order>, StoreError>)
    ensures !available <==> r.Failure?
    ensures r.Success? ==> NewestPageOf(r.value, Filter(store.orders, ForStudent(studentId)))
    ensures r.Success? ==> forall o :: o in r.value ==> o in store.orders && o.studentId == studentId
    ensures r.Success? && Count(store.orders, ForStudent(studentId)) <= DefaultListLimit ==>
      multiset(r.value) == multiset(Filter(store.orders, ForStudent(studentId)))
      && forall o :: o in r.value <==> o in store.orders && o.studentId == studentId
  {
    if !available then Failure(Unavailable)
    else
      var all := Filter(store.orders, ForStudent(studentId));
      var r := FirstPage(all);
      if |all| <= DefaultListLimit then
        SameMembers(r, all);
        Success(r)
      else Success(r)
  }

  // ---------------------------------------------------------------------
  // Laws of the store calls
  // ---------------------------------------------------------------------

  /** The lookup finds the first document carrying the id. */
  lemma {:induction false} IndexOfFirst(orders: seq<Order>, id: string, j: nat)
    requires j < |orders| && orders[j].id == id
    requires forall k :: 0 <= k < j ==> orders[k].id != id
    ensures IndexOf(orders, id) == Some(j)
    decreases j
  {
    if j > 0 {
      IndexOfFirst(orders[1..], id, j - 1);
    }
  }

  /** A created order can be read back by its id, unchanged, and the store
      keeps unique document ids. */
  lemma CreateThenGet(store: Store, req: OrderRequest, newId: string, draw: real, now: int)
    requires 0.0 <= draw < 1.0 && UniqueIds(store) && !HasOrder(store, newId)
    ensures var r := CreateOrder(store, req, newId, draw, now, true);
      r.Success? && UniqueIds(r.value.0) && GetOrderById(r.value.0, newId, true) == Success(r.value.1)
  {
    var r := CreateOrder(store, req, newId, draw, now, true);
    var s' := r.value.0;
    var n := |store.orders|;
    forall k | 0 <= k < n
      ensures s'.orders[k].id != newId
    {
      assert s'.orders[k] == store.orders[k] && store.orders[k] in store.orders;
    }
    forall i, j | 0 <= i < j < |s'.orders|
      ensures s'.orders[i].id != s'.orders[j].id
    {
    }
    IndexOfFirst(s'.orders, newId, n);
  }

  /** An updated order reads back with the new status and update time and
      every other field as before; the store keeps unique ids. */
  lemma UpdateThenGet(store: Store, id: string, status: Status, now: int)
    requires UniqueIds(store) && HasOrder(store, id)
    ensures var r := UpdateOrderStatus(store, id, status, now, true);
      && r.Success?
      && UniqueIds(r.value.0)
      && GetOrderById(r.value.0, id, true) == Success(r.value.1)
      && r.value.1.status == status && r.value.1.updatedAt == Some(now)
  {
    var j := IndexOf(store.orders, id).value;
    var r := UpdateOrderStatus(store, id, status, now, true);
    var s' := r.value.0;
    assert s'.orders == store.orders[j := r.value.1];
    assert forall k :: 0 <= k < |s'.orders| ==> s'.orders[k].id == store.orders[k].id;
    IndexOfFirst(s'.orders, id, j);
  }

  /** The store applies a status change whatever the current status is: for
      any stored order and any target, the update succeeds. */
  lemma UpdateHasNoTransitionCheck(store: Store, id: string, target: Status, now: int)
    requires HasOrder(store, id)
    ensures UpdateOrderStatus(store, id, target, now, true).Success?
    ensures UpdateOrderStatus(store, id, target, now, true).value.1.status == target
  {
  }

  const SampleOrder := Order("a", 1000, "Amy", "S1", [], 60, Ready, 0, None)

  /** In particular a `ready` order is moved straight to `completed`, an edge
      the lifecycle does not allow. */
  lemma SkippedEdgeIsAccepted()
    ensures !LegalSuccessor(Ready, Completed)
    ensures var r := UpdateOrderStatus(Store([SampleOrder]), "a", Completed, 1, true);
      r.Success? && r.value.1.status == Completed
  {
    assert SampleOrder in Store([SampleOrder]).orders;
  }

  /** Order numbers are not unique: two orders drawing the same number are
      both stored. */
  lemma OrderNumbersMayCollide(req: OrderRequest)
    ensures var r := CreateOrder(Store([SampleOrder]), req, "b", 0.0, 1, true);
      && r.Success?
      && r.value.1.orderNumber == SampleOrder.orderNumber
      && r.value.0.orders[0].orderNumber == r.value.0.orders[1].orderNumber
  {
  }
}

=== FILE: stats.dfy ===
/** The statistics endpoint, app/api/stats/route.ts: one pass over the
    scanned order documents computing distinct students, counts per status,
    revenue from completed orders, recent counts and the average order value. */
module Stats {
  import opened Wrappers
  import opened Folds
  import opened OrderStatus
  import opened Orders
  import opened ApiAuth

  /** An order document as the endpoint reads it: the status is whatever
      string is stored, and `email` is an attribute orders may lack. */
  datatype OrderDoc = OrderDoc(
    studentId: string,
    studentName: string,
    email: Option<string>,
    status: string,
    total: int,
    createdAt: int)

  /** The document a typed order is stored as. */
  function ToDoc(o: Order): OrderDoc {
    OrderDoc(o.studentId, o.studentName, None, Name(o.status), o.total, o.createdAt)
  }

  function ToDocs(orders: seq<Order>): (r: seq<OrderDoc>)
    ensures |r| == |orders| && forall i :: 0 <= i < |orders| ==> r[i] == ToDoc(orders[i])
  {
    seq(|orders|, i requires 0 <= i < |orders| => ToDoc(orders[i]))
  }

  // ---------------------------------------------------------------------
  // ordersByStatus: a JavaScript object, i.e. keys in insertion order
  // ---------------------------------------------------------------------

  datatype Entry = Entry(key: string, count: int)

  function EntryCount(e: Entry): int { e.count }

  /** The five zero entries the object starts with. */
  const BaseCounts: seq<Entry> := [Entry("received", 0), Entry("preparing", 0), Entry("ready", 0),
                                   Entry("taken-unpaid", 0), Entry("completed", 0)]

  predicate DistinctKeys(kv: seq<Entry>) {
    forall i, j :: 0 <= i < j < |kv| ==> kv[i].key != kv[j].key
  }

  function KeyIndex(kv: seq<Entry>, k: string): (r: Option<nat>)
    ensures r.Some? ==> r.value < |kv| && kv[r.value].key == k
    ensures r.None? ==> forall e :: e in kv ==> e.key != k
  {
    if |kv| == 0 then None
    else if kv[0].key == k then Some(0)
    else
      match KeyIndex(kv[1..], k)
      case None => None
      case Some(j) => Some(j + 1)
  }

  /** `ordersByStatus[k] = (ordersByStatus[k] || 0) + 1`. */
  function Bump(kv: seq<Entry>, k: string): seq<Entry> {
    match KeyIndex(kv, k)
    case Some(j) => kv[j := Entry(k, kv[j].count + 1)]
    case None => kv + [Entry(k, 1)]
  }

  /** The per-status counts after scanning `docs` in order. */
  function CountByStatus(docs: seq<OrderDoc>): seq<Entry>
    decreases |docs|
  {
    if |docs| == 0 then BaseCounts
    else Bump(CountByStatus(docs[..|docs| - 1]), docs[|docs| - 1].status)
  }

  function StatusIs(k: string): OrderDoc -> bool {
    (d: OrderDoc) => d.status == k
  }

  predicate HasKey(kv: seq<Entry>, k: string) {
    exists e :: e in kv && e.key == k
  }

  /** The five statuses come first, in order, and no key repeats. */
  predicate KeysLaidOut(kv: seq<Entry>) {
    DistinctKeys(kv) && |kv| >= 5 && forall i :: 0 <= i < 5 ==> kv[i].key == AllNames[i]
  }

  /** Every key counts exactly the documents carrying it as status. */
  predicate CountsMatch(docs: seq<OrderDoc>, kv: seq<Entry>) {
    forall i :: 0 <= i < |kv| ==> kv[i].count == Count(docs, StatusIs(kv[i].key))
  }

  /** Every document's status is a key. */
  predicate CoversDocs(docs: seq<OrderDoc>, kv: seq<Entry>) {
    forall d :: d in docs ==> HasKey(kv, d.status)
  }

  /** Keys beyond the five come from some document. */
  predicate ExtraKeysFromDocs(docs: seq<OrderDoc>, kv: seq<Entry>) {
    forall i :: 5 <= i < |kv| ==> SomeDocHas(docs, kv[i].key)
  }

  predicate SomeDocHas(docs: seq<OrderDoc>, status: string) {
    exists d :: d in docs && d.status == status
  }

  predicate Tally(docs: seq<OrderDoc>, kv: seq<Entry>) {
    && KeysLaidOut(kv)
    && CountsMatch(docs, kv)
    && CoversDocs(docs, kv)
    && ExtraKeysFromDocs(docs, kv)
    && Sum(kv, EntryCount) == |docs|
  }

  lemma BaseCountsSumToZero()
    ensures Sum(BaseCounts, EntryCount) == 0
  {
    forall e | e in BaseCounts ensures EntryCount(e) == 0 { }
    SumZero(BaseCounts, EntryCount);
  }

  lemma CountOneMore(init: seq<OrderDoc>, x: OrderDoc, key: string)
    ensures Count(init + [x], StatusIs(key)) == Count(init, StatusIs(key)) + (if key == x.status then 1 else 0)
  {
    FilterSnoc(init, x, StatusIs(key));
  }

  /** Two tables with the same keys in the same places. */
  predicate SameKeys(kv: seq<Entry>, r: seq<Entry>) {
    |r| == |kv| && forall i :: 0 <= i < |kv| ==> r[i].key == kv[i].key
  }

  lemma SameKeysKeepLayout(docs: seq<OrderDoc>, kv: seq<Entry>, r: seq<Entry>)
    requires SameKeys(kv, r)
    requires KeysLaidOut(kv) && CoversDocs(docs, kv) && ExtraKeysFromDocs(docs, kv)
    ensures KeysLaidOut(r) && CoversDocs(docs, r) && ExtraKeysFromDocs(docs, r)
  {
    forall d | d in docs ensures HasKey(r, d.status) {
      var e :| e in kv && e.key == d.status;
      var i :| 0 <= i < |kv| && kv[i] == e;
      assert r[i] in r;
    }
    forall i | 5 <= i < |r| ensures SomeDocHas(docs, r[i].key) {
      assert SomeDocHas(docs, kv[i].key);
    }
  }

  lemma GrowDocs(init: seq<OrderDoc>, x: OrderDoc, kv: seq<Entry>)
    requires HasKey(kv, x.status)
    requires CoversDocs(init, kv) && ExtraKeysFromDocs(init, kv)
    ensures CoversDocs(init + [x], kv) && ExtraKeysFromDocs(init + [x], kv)
  {
    forall i | 5 <= i < |kv| ensures SomeDocHas(init + [x], kv[i].key) {
      assert SomeDocHas(init, kv[i].key);
      var d :| d in init && d.status == kv[i].key;
      assert d in init + [x];
    }
  }

  /** Scanning a document whose status is already a key increments that key. */
  lemma BumpExistingKey(init: seq<OrderDoc>, x: OrderDoc, kv: seq<Entry>, j: nat)
    requires Tally(init, kv)
    requires j < |kv| && kv[j].key == x.status
    ensures Tally(init + [x], kv[j := Entry(x.status, kv[j].count + 1)])
  {
    var docs, r := init + [x], kv[j := Entry(x.status, kv[j].count + 1)];
    assert kv[j] in kv;
    GrowDocs(init, x, kv);
    SameKeysKeepLayout(docs, kv, r);
    forall i | 0 <= i < |r| ensures r[i].count == Count(docs, StatusIs(r[i].key)) {
      CountOneMore(init, x, r[i].key);
    }
    SumUpdate(kv, j, Entry(x.status, kv[j].count + 1), EntryCount);
  }

  /** Scanning a document with a new status appends that key with count 1. */
  lemma BumpNewKey(init: seq<OrderDoc>, x: OrderDoc, kv: seq<Entry>)
    requires Tally(init, kv)
    requires !HasKey(kv, x.status)
    ensures Tally(init + [x], kv + [Entry(x.status, 1)])
  {
    var docs, r := init + [x], kv + [Entry(x.status, 1)];
    assert DistinctKeys(r) by {
      forall i | 0 <= i < |kv| ensures kv[i].key != x.status {
        assert kv[i] in kv;
      }
    }
    assert KeysLaidOut(r);
    forall d | d in init ensures !StatusIs(x.status)(d) {
      assert HasKey(kv, d.status);
    }
    CountNone(init, StatusIs(x.status));
    forall i | 0 <= i < |r| ensures r[i].count == Count(docs, StatusIs(r[i].key)) {
      CountOneMore(init, x, r[i].key);
      if i < |kv| {
        assert kv[i] in kv;
      }
    }
    forall d | d in docs ensures HasKey(r, d.status) {
      if d in init {
        var e :| e in kv && e.key == d.status;
        assert e in r;
      } else {
        assert r[|kv|] in r;
      }
    }
    forall i | 5 <= i < |r| ensures SomeDocHas(docs, r[i].key) {
      if i < |kv| {
        assert SomeDocHas(init, kv[i].key);
        var d :| d in init && d.status == kv[i].key;
        assert d in docs;
      } else {
        assert x in docs;
      }
    }
    SumAppend(kv, [Entry(x.status, 1)], EntryCount);
    SumSingleton(Entry(x.status, 1), EntryCount);
  }

  /** The per-status object starts with the five statuses in order, gains a
      key for each other status met, counts for every key exactly the
      documents with that status, and its counts add up to the documents
      scanned. */
  lemma {:induction false} CountByStatusLaws(docs: seq<OrderDoc>)
    ensures Tally(docs, CountByStatus(docs))
    decreases |docs|
  {
    if |docs| == 0 {
      BaseCountsSumToZero();
    } else {
      var init, x := docs[..|docs| - 1], docs[|docs| - 1];
      assert docs == init + [x];
      CountByStatusLaws(init);
      var kv := CountByStatus(init);
      match KeyIndex(kv, x.status)
      case Some(j) =>
        BumpExistingKey(init, x, kv, j);
      case None =>
        BumpNewKey(init, x, kv);
    }
  }

  /** The status counts add up to the number of documents scanned. */
  lemma StatusCountsAddUp(docs: seq<OrderDoc>)
    ensures Sum(CountByStatus(docs), EntryCount) == |docs|
  {
    CountByStatusLaws(docs);
  }

  // ---------------------------------------------------------------------
  // The report
  // ---------------------------------------------------------------------

  /** What a completed document adds to `totalRevenue`. */
  function CompletedRevenue(d: OrderDoc): int {
    if d.status == "completed" then d.total else 0
  }

  function DocTotal(d: OrderDoc): int { d.total }

  function CreatedSince(t: int): OrderDoc -> bool {
    (d: OrderDoc) => d.createdAt >= t
  }

  /** The distinct student ids of the scanned documents (`uniqueStudents`). */
  function StudentIdSet(docs: seq<OrderDoc>): set<string> {
    set d | d in docs :: d.studentId
  }

  /** No more distinct students than documents. */
  lemma {:induction false} StudentsAtMostOrders(docs: seq<OrderDoc>)
    ensures |StudentIdSet(docs)| <= |docs|
    decreases |docs|
  {
    if |docs| > 0 {
      var init, last := docs[..|docs| - 1], docs[|docs| - 1];
      assert docs == init + [last];
      StudentsAtMostOrders(init);
      assert StudentIdSet(docs) == StudentIdSet(init) + {last.studentId};
    }
  }

  /** `Math.round(total / n)` for n > 0, in integers: halves round up. */
  function RoundedAverage(total: int, n: int): (r: int)
    ensures n > 0 ==> 2 * n * r - n <= 2 * total < 2 * n * r + n
    ensures n <= 0 ==> r == 0
  {
    if n > 0 then
      var q := (2 * total + n) / (2 * n);
      assert 2 * n * q <= 2 * total + n < 2 * n * q + 2 * n by {
        DivisionBounds(2 * total + n, 2 * n);
      }
      q
    else 0
  }

  lemma DivisionBounds(a: int, b: int)
    requires b > 0
    ensures b * (a / b) <= a < b * (a / b) + b
  {
  }

  datatype Report = Report(
    totalStudents: nat,
    totalOrders: nat,
    totalRevenue: int,
    ordersToday: nat,
    ordersThisWeek: nat,
    ordersByStatus: seq<Entry>,
    averageOrderValue: int)

  /** The `stats` object for the scanned documents, given the start of the
      local day and the instant one week before now. */
  function Statistics(docs: seq<OrderDoc>, todayStart: int, weekStart: int): (r: Report)
    ensures r.totalOrders == |docs|
    ensures r.totalStudents <= r.totalOrders
    ensures r.ordersToday <= r.totalOrders && r.ordersThisWeek <= r.totalOrders
    ensures todayStart >= weekStart ==> r.ordersToday <= r.ordersThisWeek
    ensures Sum(r.ordersByStatus, EntryCount) == r.totalOrders
    ensures r.totalOrders > 0 ==>
      2 * r.totalOrders * r.averageOrderValue - r.totalOrders <= 2 * r.totalRevenue
        < 2 * r.totalOrders * r.averageOrderValue + r.totalOrders
    ensures |docs| == 0 ==> r == Report(0, 0, 0, 0, 0, BaseCounts, 0)
    ensures r.totalStudents == |StudentIdSet(docs)|
    ensures r.totalRevenue == Sum(Filter(docs, StatusIs("completed")), DocTotal)
    ensures Tally(docs, r.ordersByStatus)
    ensures r.ordersToday == Count(docs, CreatedSince(todayStart))
    ensures r.ordersThisWeek == Count(docs, CreatedSince(weekStart))
  {
    var revenue := Sum(docs, CompletedRevenue);
    StudentsAtMostOrders(docs);
    StatusCountsAddUp(docs);
    CountByStatusLaws(docs);
    RevenueCountsOnlyCompleted(docs, OrderDoc("", "", None, "", 0, 0));
    RecentCountsOrdered(docs, todayStart, weekStart);
    Report(
      |StudentIdSet(docs)|,
      |docs|,
      revenue,
      Count(docs, CreatedSince(todayStart)),
      Count(docs, CreatedSince(weekStart)),
      CountByStatus(docs),
      RoundedAverage(revenue, |docs|))
  }

  /** A later cut-off never counts more documents than an earlier one. */
  lemma RecentCountsOrdered(docs: seq<OrderDoc>, later: int, earlier: int)
    ensures later >= earlier ==> Count(docs, CreatedSince(later)) <= Count(docs, CreatedSince(earlier))
  {
    if later >= earlier {
      CountMonotone(docs, CreatedSince(later), CreatedSince(earlier));
    }
  }

  /** Revenue is the sum of the totals of the completed documents and of
      nothing else: a document in any other status adds nothing. */
  lemma RevenueCountsOnlyCompleted(docs: seq<OrderDoc>, other: OrderDoc)
    requires other.status != "completed"
    ensures Sum(docs, CompletedRevenue) == Sum(Filter(docs, StatusIs("completed")), DocTotal)
    ensures Sum(docs + [other], CompletedRevenue) == Sum(docs, CompletedRevenue)
  {
    var done, rest := StatusIs("completed"), (d: OrderDoc) => d.status != "completed";
    SumPartition(docs, CompletedRevenue, done, rest);
    SumZero(Filter(docs, rest), CompletedRevenue);
    SumCongruent(Filter(docs, done), CompletedRevenue, DocTotal);
    SumAppend(docs, [other], CompletedRevenue);
    SumSingleton(other, CompletedRevenue);
  }

  /** Documents of typed orders only ever carry the five known statuses, so
      the per-status object keeps exactly its five starting keys. */
  lemma {:induction false} TypedOrdersKeepFiveKeys(orders: seq<Order>)
    ensures var r := CountByStatus(ToDocs(orders));
      |r| == 5 && forall i :: 0 <= i < 5 ==> r[i].key == AllNames[i]
    decreases |orders|
  {
    if |orders| > 0 {
      var init, o := orders[..|orders| - 1], orders[|orders| - 1];
      var docs := ToDocs(orders);
      assert docs[..|docs| - 1] == ToDocs(init);
      TypedOrdersKeepFiveKeys(init);
      var kv := CountByStatus(ToDocs(init));
      var k := Name(o.status);
      assert kv[Rank(o.status)].key == k by { NameAtRank(o.status); }
      assert kv[Rank(o.status)] in kv;
      var j := KeyIndex(kv, k).value;
      assert CountByStatus(docs) == kv[j := Entry(k, kv[j].count + 1)];
    }
  }

  lemma NameAtRank(s: Status)
    ensures Rank(s) < 5 && AllNames[Rank(s)] == Name(s)
  {
  }

  /** One completed order of 60 and one unpaid order of 50: revenue 60, and
      the average divides by both orders, giving 30. */
  lemma CompletedAndUnpaidExample(todayStart: int, weekStart: int)
    ensures var r := Statistics([OrderDoc("s1", "Amy", None, "completed", 60, 0),
                                 OrderDoc("s2", "Ben", None, "taken-unpaid", 50, 0)], todayStart, weekStart);
      r.totalRevenue == 60 && r.averageOrderValue == 30 && r.totalOrders == 2
  {
    var a := OrderDoc("s1", "Amy", None, "completed", 60, 0);
    var b := OrderDoc("s2", "Ben", None, "taken-unpaid", 50, 0);
    var docs := [a, b];
    assert docs == [a] + [b];
    SumAppend([a], [b], CompletedRevenue);
    SumSingleton(a, CompletedRevenue);
    SumSingleton(b, CompletedRevenue);
  }

  // ---------------------------------------------------------------------
  // The endpoint
  // ---------------------------------------------------------------------

  /** `Query.limit(2000)`: at most this many documents are scanned. */
  const StatsScanLimit := 2000

  const DayMs := 24 * 60 * 60 * 1000
  const WeekMs := 7 * DayMs

  datatype StatsResponse = StatsUnauthorized | StatsServerError | StatsOk(report: Report)

  /** The documents the endpoint reads: the first `StatsScanLimit` stored. */
  function StatsScanned(stored: seq<OrderDoc>): (r: seq<OrderDoc>)
    ensures |r| == if |stored| < StatsScanLimit then |stored| else StatsScanLimit
    ensures r == stored[..|r|]
  {
    if |stored| < StatsScanLimit then stored else stored[..StatsScanLimit]
  }

  /** `GET /api/stats`: 401 without the right token, 500 when the store
      fails, otherwise the statistics of the first documents the store lists. */
  function StatsRoute(header: Option<string>, env: Option<string>, stored: seq<OrderDoc>,
                      available: bool, todayStart: int, now: int): (r: StatsResponse)
    ensures !Authorized(header, ConfiguredToken(env)) <==> r == StatsUnauthorized
    ensures r == StatsServerError <==> Authorized(header, ConfiguredToken(env)) && !available
    ensures r.StatsOk? ==> r.report.totalOrders == if |stored| < StatsScanLimit then |stored| else StatsScanLimit
    ensures r.StatsOk? && now - DayMs < todayStart ==> r.report.ordersToday <= r.report.ordersThisWeek
    ensures r.StatsOk? ==> r.report == Statistics(StatsScanned(stored), todayStart, now - WeekMs)
    ensures r.StatsOk? ==> Tally(StatsScanned(stored), r.report.ordersByStatus)
    ensures r.StatsOk? ==>
      r.report.totalRevenue == Sum(Filter(StatsScanned(stored), StatusIs("completed")), DocTotal)
  {
    if !Authorized(header, ConfiguredToken(env)) then StatsUnauthorized
    else if !available then StatsServerError
    else StatsOk(Statistics(StatsScanned(stored), todayStart, now - WeekMs))
  }
}

=== FILE: student_orders.dfy ===
/** The student's order page, app/orders/page.tsx: the active/past split,
    the status badge, and the relative date label. */
module StudentOrders {
  import opened Wrappers
  import opened Folds
  import opened Numbers
  import opened OrderStatus
  import opened Orders

  const ActiveNames: seq<string> := ["received", "preparing", "ready"]
  const PastNames: seq<string> := ["taken-unpaid", "completed"]

  predicate IsActive(o: Order) { Name(o.status) in ActiveNames }

  predicate IsPast(o: Order) { Name(o.status) in PastNames }

  /** `activeOrders`: the orders still being handled, in listed order. */
  function ActiveOrders(orders: seq<Order>): (r: seq<Order>)
    ensures forall o :: o in r <==> o in orders && o.status in {Received, Preparing, Ready}
  {
    Filter(orders, IsActive)
  }

  /** `pastOrders`: the orders handed over, paid or not, in listed order. */
  function PastOrders(orders: seq<Order>): (r: seq<Order>)
    ensures forall o :: o in r <==> o in orders && o.status in {TakenUnpaid, Completed}
  {
    Filter(orders, IsPast)
  }

  /** Every order appears in exactly one of the two lists, as often as it
      was listed, and both lists keep the listed order. */
  lemma ActivePastPartition(orders: seq<Order>, more: seq<Order>)
    ensures multiset(ActiveOrders(orders)) + multiset(PastOrders(orders)) == multiset(orders)
    ensures forall o :: o in orders ==> (o in ActiveOrders(orders) <==> o !in PastOrders(orders))
    ensures ActiveOrders(orders + more) == ActiveOrders(orders) + ActiveOrders(more)
    ensures PastOrders(orders + more) == PastOrders(orders) + PastOrders(more)
  {
    FilterPartition(orders, IsActive, IsPast);
    FilterAppend(orders, more, IsActive);
    FilterAppend(orders, more, IsPast);
  }

  /** The colour family of a badge; `Classes` gives its style classes. */
  datatype Tone = Blue | Yellow | Green | Orange | Neutral

  function Classes(t: Tone): string {
    match t
    case Blue => "bg-blue-50 text-blue-700 border-blue-200"
    case Yellow => "bg-yellow-50 text-yellow-700 border-yellow-200"
    case Green => "bg-green-50 text-green-700 border-green-200"
    case Orange => "bg-orange-50 text-orange-700 border-orange-200"
    case Neutral => "bg-neutral-100 text-neutral-600 border-neutral-200"
  }

  datatype Badge = Badge(style: Tone, text: string)

  function StyleOf(s: Status): Tone {
    match s
    case Received => Blue
    case Preparing => Yellow
    case Ready => Green
    case TakenUnpaid => Orange
    case Completed => Neutral
  }

  function LabelOf(s: Status): string {
    match s
    case Received => "Received"
    case Preparing => "Preparing"
    case Ready => "Ready"
    case TakenUnpaid => "Pending Payment"
    case Completed => "Completed"
  }

  /** `getStatusBadge`: a known status gets its own style and label; any other
      string gets the `received` style and itself as the label. */
  function StatusBadge(status: string): (r: Badge)
    ensures Parse(status).None? ==> r == Badge(StyleOf(Received), status)
  {
    match Parse(status)
    case Some(s) => Badge(StyleOf(s), LabelOf(s))
    case None => Badge(StyleOf(Received), status)
  }

  /** The badge tells the five statuses apart by label and by style, and the
      unpaid state reads "Pending Payment". */
  lemma BadgesDistinguishStatuses(s: Status, t: Status)
    ensures StatusBadge(Name(s)) == Badge(StyleOf(s), LabelOf(s))
    ensures s != t ==> StatusBadge(Name(s)).text != StatusBadge(Name(t)).text
    ensures s != t ==> StatusBadge(Name(s)).style != StatusBadge(Name(t)).style
    ensures StatusBadge("taken-unpaid").text == "Pending Payment"
  {
    NameParseRoundTrip(s, Name(s));
    NameParseRoundTrip(t, Name(t));
    assert Parse("taken-unpaid") == Some(TakenUnpaid);
    if s != t {
      LabelsDiffer(s, t);
    }
  }

  lemma LabelsDiffer(s: Status, t: Status)
    requires s != t
    ensures LabelOf(s) != LabelOf(t)
  {
    assert |LabelOf(s)| != |LabelOf(t)| || LabelOf(s)[0] != LabelOf(t)[0];
  }

  /** A relative date label, before its text is formatted. */
  datatype RelativeDate = MinutesAgo(minutes: int) | HoursAgo(hours: int) | CalendarDate(at: int)

  const MinutesPerDay := 1440

  /** `formatDate`: minutes elapsed (rounded down) under an hour, including
      negative ones for a future timestamp; whole hours under a day; the
      calendar date beyond. */
  function FormatDate(createdAt: int, now: int): (r: RelativeDate)
    ensures r.MinutesAgo? <==> now - createdAt < 60 * MsPerMinute
    ensures r.MinutesAgo? ==>
      r.minutes * MsPerMinute <= now - createdAt < (r.minutes + 1) * MsPerMinute
    ensures r.HoursAgo? ==>
      (1 <= r.hours < 24 && r.hours * 60 * MsPerMinute <= now - createdAt < (r.hours + 1) * 60 * MsPerMinute)
    ensures r.CalendarDate? <==> now - createdAt >= MinutesPerDay * MsPerMinute
    ensures r.CalendarDate? ==> r.at == createdAt
  {
    var diffMins := (now - createdAt) / MsPerMinute;
    if diffMins < 60 then MinutesAgo(diffMins)
    else if diffMins < MinutesPerDay then HoursAgo(diffMins / 60)
    else CalendarDate(createdAt)
  }
}

=== FILE: students.dfy ===
/** The student directory endpoint, app/api/students/route.ts: students are
    not read from the account service but rolled up from the scanned order
    documents, one record per distinct student id in order of first
    appearance, then paged with the query's `page` and `limit`. */
module Students {
  import opened Wrappers
  import opened Folds
  import opened Numbers
  import opened ApiAuth
  import opened Stats

  datatype StudentRecord = StudentRecord(
    id: string,
    name: string,
    email: string,
    programme: string,
    yearOfEntrance: Option<int>,
    lastLogin: int,
    totalOrders: int,
    totalSpent: int)

  const EmailDomain := "@student.hsu.edu.hk"
  const UnknownProgramme := "Unknown"

  /** The document's email when present and non-empty, else an address
      made from the student id. */
  function EmailOf(d: OrderDoc): (r: string)
    ensures d.email.Some? && d.email.value != "" ==> r == d.email.value
    ensures d.email.None? || d.email.value == "" ==> r == d.studentId + EmailDomain
  {
    if d.email.Some? && d.email.value != "" then d.email.value else d.studentId + EmailDomain
  }

  /** The record a student's first document creates. */
  function NewRecord(d: OrderDoc): StudentRecord {
    StudentRecord(d.studentId, d.studentName, EmailOf(d), UnknownProgramme, None, d.createdAt, 1, d.total)
  }

  /** A later document of the same student: one more order, its total
      added, and the login moved forward only to a strictly later time. */
  function Absorb(r: StudentRecord, d: OrderDoc): StudentRecord {
    r.(totalOrders := r.totalOrders + 1,
       totalSpent := r.totalSpent + d.total,
       lastLogin := if d.createdAt > r.lastLogin then d.createdAt else r.lastLogin)
  }

  function FindStudent(recs: seq<StudentRecord>, id: string): (r: Option<nat>)
    ensures r.Some? ==> r.value < |recs| && recs[r.value].id == id
    ensures r.None? ==> forall s :: s in recs ==> s.id != id
  {
    if |recs| == 0 then None
    else if recs[0].id == id then Some(0)
    else
      match FindStudent(recs[1..], id)
      case None => None
      case Some(j) => Some(j + 1)
  }

  /** One step of the `forEach` over the documents. */
  function Step(recs: seq<StudentRecord>, d: OrderDoc): seq<StudentRecord> {
    match FindStudent(recs, d.studentId)
    case Some(j) => recs[j := Absorb(recs[j], d)]
    case None => recs + [NewRecord(d)]
  }

  /** `Array.from(studentMap.values())` after scanning `docs` in order. */
  function Rollup(docs: seq<OrderDoc>): seq<StudentRecord>
    decreases |docs|
  {
    if |docs| == 0 then []
    else Step(Rollup(docs[..|docs| - 1]), docs[|docs| - 1])
  }

  // ---------------------------------------------------------------------
  // What a record is: a reference description in terms of the documents
  // ---------------------------------------------------------------------

  /** The index of the first document of student `id`. */
  function FirstFor(docs: seq<OrderDoc>, id: string): (r: Option<nat>)
    ensures r.Some? ==> (r.value < |docs| && docs[r.value].studentId == id
                         && forall k :: 0 <= k < r.value ==> docs[k].studentId != id)
    ensures r.None? ==> forall d :: d in docs ==> d.studentId != id
    decreases |docs|
  {
    if |docs| == 0 then None
    else
      var init := docs[..|docs| - 1];
      assert forall d :: d in docs ==> d in init || d == docs[|docs| - 1];
      match FirstFor(init, id)
      case Some(i) => Some(i)
      case None => if docs[|docs| - 1].studentId == id then Some(|docs| - 1) else None
  }

  function OfStudent(id: string): OrderDoc -> bool {
    (d: OrderDoc) => d.studentId == id
  }

  function SpentBy(id: string): OrderDoc -> int {
    (d: OrderDoc) => if d.studentId == id then d.total else 0
  }

  predicate LoginSeen(docs: seq<OrderDoc>, id: string, at: int) {
    exists d :: d in docs && d.studentId == id && d.createdAt == at
  }

  /** The position of student `id`'s first document, or |docs| if none. */
  function FirstPos(docs: seq<OrderDoc>, id: string): nat {
    match FirstFor(docs, id)
    case Some(i) => i
    case None => |docs|
  }

  /** Name and email come from the student's first document; programme
      and year of entrance are fixed. */
  predicate IdentityFrom(docs: seq<OrderDoc>, r: StudentRecord) {
    && FirstFor(docs, r.id).Some?
    && r.name == docs[FirstFor(docs, r.id).value].studentName
    && r.email == EmailOf(docs[FirstFor(docs, r.id).value])
    && r.programme == UnknownProgramme && r.yearOfEntrance == None
  }

  /** The number and the sum of the student's orders. */
  predicate TalliedIn(docs: seq<OrderDoc>, r: StudentRecord) {
    r.totalOrders == Count(docs, OfStudent(r.id)) && r.totalSpent == Sum(docs, SpentBy(r.id))
  }

  /** The latest time among the student's documents. */
  predicate LatestIn(docs: seq<OrderDoc>, r: StudentRecord) {
    && (forall d :: d in docs && d.studentId == r.id ==> d.createdAt <= r.lastLogin)
    && LoginSeen(docs, r.id, r.lastLogin)
  }

  /** `r` describes student `r.id` in `docs`. */
  predicate Describes(docs: seq<OrderDoc>, r: StudentRecord) {
    IdentityFrom(docs, r) && TalliedIn(docs, r) && LatestIn(docs, r)
  }

  predicate DistinctIds(recs: seq<StudentRecord>) {
    forall i, j :: 0 <= i < j < |recs| ==> recs[i].id != recs[j].id
  }

  predicate HasStudent(recs: seq<StudentRecord>, id: string) {
    exists r :: r in recs && r.id == id
  }

  function OrdersOf(r: StudentRecord): int { r.totalOrders }

  /** Records appear in the order of their students' first documents. */
  predicate FirstSeenOrder(docs: seq<OrderDoc>, recs: seq<StudentRecord>) {
    forall i, j :: 0 <= i < j < |recs| ==> FirstPos(docs, recs[i].id) < FirstPos(docs, recs[j].id)
  }

  /** The records are one per student of `docs`, each describing its
      student, in order of first appearance, and their order counts add up
      to the documents scanned. */
  predicate Summarises(docs: seq<OrderDoc>, recs: seq<StudentRecord>) {
    && DistinctIds(recs)
    && ListsEveryStudent(docs, recs)
    && AllDescribed(docs, recs)
    && FirstSeenOrder(docs, recs)
    && Sum(recs, OrdersOf) == |docs|
  }

  lemma FirstForSnoc(init: seq<OrderDoc>, x: OrderDoc, id: string)
    ensures FirstFor(init + [x], id) == match FirstFor(init, id)
      case Some(i) => Some(i)
      case None => if x.studentId == id then Some(|init|) else None
  {
    assert (init + [x])[..|init|] == init;
  }

  lemma TallySnoc(init: seq<OrderDoc>, x: OrderDoc, id: string)
    ensures Count(init + [x], OfStudent(id)) == Count(init, OfStudent(id)) + (if x.studentId == id then 1 else 0)
    ensures Sum(init + [x], SpentBy(id)) == Sum(init, SpentBy(id)) + (if x.studentId == id then x.total else 0)
  {
    FilterSnoc(init, x, OfStudent(id));
    SumAppend(init, [x], SpentBy(id));
    SumSingleton(x, SpentBy(id));
  }

  lemma IdentityKept(init: seq<OrderDoc>, x: OrderDoc, r: StudentRecord)
    requires IdentityFrom(init, r)
    ensures IdentityFrom(init + [x], r) && FirstFor(init + [x], r.id) == FirstFor(init, r.id)
  {
    FirstForSnoc(init, x, r.id);
    assert (init + [x])[FirstFor(init, r.id).value] == init[FirstFor(init, r.id).value];
  }

  /** A record of another student still describes it after one more document. */
  lemma DescribesOther(init: seq<OrderDoc>, x: OrderDoc, r: StudentRecord)
    requires Describes(init, r) && r.id != x.studentId
    ensures Describes(init + [x], r) && FirstFor(init + [x], r.id) == FirstFor(init, r.id)
  {
    IdentityKept(init, x, r);
    TallySnoc(init, x, r.id);
    var w :| w in init && w.studentId == r.id && w.createdAt == r.lastLogin;
    assert w in init + [x];
  }

  /** The record of the document's own student absorbs it. */
  lemma DescribesAbsorbed(init: seq<OrderDoc>, x: OrderDoc, r: StudentRecord)
    requires Describes(init, r) && r.id == x.studentId
    ensures Describes(init + [x], Absorb(r, x)) && FirstFor(init + [x], r.id) == FirstFor(init, r.id)
  {
    var docs := init + [x];
    IdentityKept(init, x, r);
    TallySnoc(init, x, r.id);
    if x.createdAt > r.lastLogin {
      assert x in docs;
    } else {
      var w :| w in init && w.studentId == r.id && w.createdAt == r.lastLogin;
      assert w in docs;
    }
  }

  /** A student's first document creates a record describing them. */
  lemma DescribesNew(init: seq<OrderDoc>, x: OrderDoc)
    requires forall d :: d in init ==> d.studentId != x.studentId
    ensures Describes(init + [x], NewRecord(x)) && FirstFor(init + [x], x.studentId) == Some(|init|)
  {
    NewIdentity(init, x);
    NewTally(init, x);
    assert x in init + [x];
  }

  lemma NewIdentity(init: seq<OrderDoc>, x: OrderDoc)
    requires forall d :: d in init ==> d.studentId != x.studentId
    ensures IdentityFrom(init + [x], NewRecord(x)) && FirstFor(init + [x], x.studentId) == Some(|init|)
  {
    FirstForSnoc(init, x, x.studentId);
    assert (init + [x])[|init|] == x;
  }

  lemma NewTally(init: seq<OrderDoc>, x: OrderDoc)
    requires forall d :: d in init ==> d.studentId != x.studentId
    ensures TalliedIn(init + [x], NewRecord(x))
  {
    var id := x.studentId;
    CountNone(init, OfStudent(id));
    forall d | d in init ensures SpentBy(id)(d) == 0 { }
    SumZero(init, SpentBy(id));
    TallySnoc(init, x, id);
  }

  predicate AllDescribed(docs: seq<OrderDoc>, recs: seq<StudentRecord>) {
    forall i :: 0 <= i < |recs| ==> Describes(docs, recs[i])
  }

  predicate ListsEveryStudent(docs: seq<OrderDoc>, recs: seq<StudentRecord>) {
    forall d :: d in docs ==> HasStudent(recs, d.studentId)
  }

  lemma AbsorbKeepsDescriptions(init: seq<OrderDoc>, x: OrderDoc, recs: seq<StudentRecord>, j: nat)
    requires AllDescribed(init, recs) && DistinctIds(recs)
    requires j < |recs| && recs[j].id == x.studentId
    ensures var out := recs[j := Absorb(recs[j], x)];
      AllDescribed(init + [x], out)
      && forall i :: 0 <= i < |out| ==> FirstPos(init + [x], out[i].id) == FirstPos(init, recs[i].id)
  {
    var docs, out := init + [x], recs[j := Absorb(recs[j], x)];
    forall i | 0 <= i < |out|
      ensures Describes(docs, out[i]) && FirstPos(docs, out[i].id) == FirstPos(init, recs[i].id)
    {
      if i == j {
        DescribesAbsorbed(init, x, recs[j]);
      } else {
        DescribesOther(init, x, recs[i]);
      }
    }
  }

  lemma AbsorbKeepsCover(init: seq<OrderDoc>, x: OrderDoc, recs: seq<StudentRecord>, j: nat)
    requires ListsEveryStudent(init, recs)
    requires j < |recs| && recs[j].id == x.studentId
    ensures ListsEveryStudent(init + [x], recs[j := Absorb(recs[j], x)])
  {
    var out := recs[j := Absorb(recs[j], x)];
    forall d | d in init + [x] ensures HasStudent(out, d.studentId) {
      if d in init {
        var s :| s in recs && s.id == d.studentId;
        var i :| 0 <= i < |recs| && recs[i] == s;
        assert out[i] in out;
      } else {
        assert out[j] in out;
      }
    }
  }

  lemma StepExisting(init: seq<OrderDoc>, x: OrderDoc, recs: seq<StudentRecord>, j: nat)
    requires Summarises(init, recs)
    requires j < |recs| && recs[j].id == x.studentId
    ensures Summarises(init + [x], recs[j := Absorb(recs[j], x)])
  {
    var docs, out := init + [x], recs[j := Absorb(recs[j], x)];
    assert AllDescribed(docs, out) && DistinctIds(out) && FirstSeenOrder(docs, out) by {
      AbsorbKeepsDescriptions(init, x, recs, j);
      SameIdsKeepOrder(init, docs, recs, out);
    }
    assert ListsEveryStudent(docs, out) by {
      AbsorbKeepsCover(init, x, recs, j);
    }
    assert Sum(out, OrdersOf) == |docs| by {
      SumUpdate(recs, j, Absorb(recs[j], x), OrdersOf);
    }
  }

  lemma SameIdsKeepOrder(before: seq<OrderDoc>, after: seq<OrderDoc>, recs: seq<StudentRecord>, out: seq<StudentRecord>)
    requires DistinctIds(recs) && FirstSeenOrder(before, recs)
    requires |out| == |recs| && forall i :: 0 <= i < |out| ==> out[i].id == recs[i].id
    requires forall i :: 0 <= i < |out| ==> FirstPos(after, out[i].id) == FirstPos(before, recs[i].id)
    ensures DistinctIds(out) && FirstSeenOrder(after, out)
  {
  }

  lemma AppendKeepsDescriptions(init: seq<OrderDoc>, x: OrderDoc, recs: seq<StudentRecord>)
    requires AllDescribed(init, recs)
    requires forall d :: d in init ==> d.studentId != x.studentId
    requires forall s :: s in recs ==> s.id != x.studentId
    ensures AllDescribed(init + [x], recs + [NewRecord(x)])
    ensures forall i :: 0 <= i < |recs| ==> FirstPos(init + [x], recs[i].id) == FirstPos(init, recs[i].id) < |init|
    ensures FirstPos(init + [x], x.studentId) == |init|
  {
    var docs, out := init + [x], recs + [NewRecord(x)];
    DescribesNew(init, x);
    forall i | 0 <= i < |recs|
      ensures Describes(docs, out[i]) && FirstPos(docs, recs[i].id) == FirstPos(init, recs[i].id) < |init|
    {
      assert recs[i] in recs;
      DescribesOther(init, x, recs[i]);
    }
  }

  lemma AppendKeepsOrder(init: seq<OrderDoc>, x: OrderDoc, recs: seq<StudentRecord>)
    requires FirstSeenOrder(init, recs)
    requires forall i :: 0 <= i < |recs| ==> FirstPos(init + [x], recs[i].id) == FirstPos(init, recs[i].id) < |init|
    requires FirstPos(init + [x], x.studentId) == |init|
    ensures FirstSeenOrder(init + [x], recs + [NewRecord(x)])
  {
    var out := recs + [NewRecord(x)];
    assert forall i :: 0 <= i < |recs| ==> out[i] == recs[i];
  }

  lemma AppendKeepsCover(init: seq<OrderDoc>, x: OrderDoc, recs: seq<StudentRecord>)
    requires ListsEveryStudent(init, recs)
    ensures ListsEveryStudent(init + [x], recs + [NewRecord(x)])
  {
    var out := recs + [NewRecord(x)];
    forall d | d in init + [x] ensures HasStudent(out, d.studentId) {
      if d in init {
        var s :| s in recs && s.id == d.studentId;
        assert s in out;
      } else {
        assert out[|recs|] in out;
      }
    }
  }

  lemma NoDocsForUnlisted(docs: seq<OrderDoc>, recs: seq<StudentRecord>, id: string)
    requires ListsEveryStudent(docs, recs)
    requires forall s :: s in recs ==> s.id != id
    ensures forall d :: d in docs ==> d.studentId != id
  {
    forall d | d in docs ensures d.studentId != id {
      assert HasStudent(recs, d.studentId);
    }
  }

  lemma AppendKeepsDistinct(recs: seq<StudentRecord>, r: StudentRecord)
    requires DistinctIds(recs)
    requires forall s :: s in recs ==> s.id != r.id
    ensures DistinctIds(recs + [r])
  {
    forall i | 0 <= i < |recs| ensures recs[i].id != r.id { assert recs[i] in recs; }
  }

  lemma StepNew(init: seq<OrderDoc>, x: OrderDoc, recs: seq<StudentRecord>)
    requires Summarises(init, recs)
    requires forall s :: s in recs ==> s.id != x.studentId
    ensures Summarises(init + [x], recs + [NewRecord(x)])
  {
    var docs, out := init + [x], recs + [NewRecord(x)];
    NoDocsForUnlisted(init, recs, x.studentId);
    AppendKeepsDescriptions(init, x, recs);
    AppendKeepsOrder(init, x, recs);
    assert ListsEveryStudent(docs, out) by {
      AppendKeepsCover(init, x, recs);
    }
    assert DistinctIds(out) by {
      AppendKeepsDistinct(recs, NewRecord(x));
    }
    assert Sum(out, OrdersOf) == |docs| by {
      SumAppend(recs, [NewRecord(x)], OrdersOf);
      SumSingleton(NewRecord(x), OrdersOf);
    }
  }

  /** The roll-up has one record per distinct student id, in order of each
      student's first document; each record carries the name and email of
      that first document, the number of the student's documents, the sum
      of their totals and the latest of their times; and the order counts
      add up to the documents scanned. */
  lemma {:induction false} RollupLaws(docs: seq<OrderDoc>)
    ensures Summarises(docs, Rollup(docs))
    decreases |docs|
  {
    if |docs| > 0 {
      var init, x := docs[..|docs| - 1], docs[|docs| - 1];
      assert docs == init + [x];
      RollupLaws(init);
      var recs := Rollup(init);
      match FindStudent(recs, x.studentId)
      case Some(j) => StepExisting(init, x, recs, j);
      case None => StepNew(init, x, recs);
    }
  }

  /** The number of records the endpoint reports as `total` is the number
      of distinct student ids, the same count the statistics endpoint
      reports as `totalStudents`. */
  lemma RollupCountsDistinctStudents(docs: seq<OrderDoc>)
    ensures |Rollup(docs)| == |StudentIdSet(docs)|
  {
    RollupLaws(docs);
    SummaryCountsStudents(docs, Rollup(docs));
  }

  lemma SummaryCountsStudents(docs: seq<OrderDoc>, recs: seq<StudentRecord>)
    requires AllDescribed(docs, recs) && ListsEveryStudent(docs, recs) && DistinctIds(recs)
    ensures |recs| == |StudentIdSet(docs)|
  {
    assert IdSet(recs) == StudentIdSet(docs) by {
      RecordIdsFromDocs(docs, recs);
      DocIdsListed(docs, recs);
    }
    DistinctImage(recs);
  }

  /** The ids of the records. */
  function IdSet(recs: seq<StudentRecord>): set<string> {
    set r | r in recs :: r.id
  }

  lemma RecordIdsFromDocs(docs: seq<OrderDoc>, recs: seq<StudentRecord>)
    requires AllDescribed(docs, recs)
    ensures IdSet(recs) <= StudentIdSet(docs)
  {
    forall id | id in IdSet(recs) ensures id in StudentIdSet(docs) {
      var r :| r in recs && r.id == id;
      var i :| 0 <= i < |recs| && recs[i] == r;
      assert IdentityFrom(docs, recs[i]);
      var d := docs[FirstFor(docs, id).value];
      assert d in docs;
    }
  }

  lemma DocIdsListed(docs: seq<OrderDoc>, recs: seq<StudentRecord>)
    requires ListsEveryStudent(docs, recs)
    ensures StudentIdSet(docs) <= IdSet(recs)
  {
    forall id | id in StudentIdSet(docs) ensures id in IdSet(recs) {
      var d :| d in docs && d.studentId == id;
      assert HasStudent(recs, id);
    }
  }

  lemma IdSetSnoc(init: seq<StudentRecord>, last: StudentRecord)
    ensures IdSet(init + [last]) == IdSet(init) + {last.id}
  {
    assert last in init + [last];
    assert forall r :: r in init + [last] <==> r in init || r == last;
  }

  lemma {:induction false} DistinctImage(recs: seq<StudentRecord>)
    requires DistinctIds(recs)
    ensures |IdSet(recs)| == |recs|
    decreases |recs|
  {
    if |recs| > 0 {
      var init, last := recs[..|recs| - 1], recs[|recs| - 1];
      assert recs == init + [last];
      assert DistinctIds(init);
      DistinctImage(init);
      IdSetSnoc(init, last);
      assert last.id !in IdSet(init) by {
        forall r | r in init ensures r.id != last.id {
          var i :| 0 <= i < |init| && init[i] == r;
          assert recs[i] == r;
        }
      }
    }
  }

  // ---------------------------------------------------------------------
  // Paging
  // ---------------------------------------------------------------------

  /** A query number after `parseInt`: an integer or NaN. */
  datatype Num = Int(n: int) | NaN

  /** A missing or empty parameter takes its default. */
  function ParamOr(param: Option<Num>, default: int): Num {
    match param
    case None => Int(default)
    case Some(v) => v
  }

  /** How `Array.prototype.slice` resolves an index: negative counts from
      the end, and the result is clamped to [0, len]. */
  function ResolveIndex(k: int, len: nat): (r: nat)
    ensures r <= len
    ensures 0 <= k <= len ==> r == k
    ensures k > len ==> r == len
    ensures k < 0 ==> r == Max(len + k, 0)
  {
    if k < 0 then Max(len + k, 0) else Min(k, len)
  }

  /** `s.slice(start, end)`: the entries from the resolved start up to the
      resolved end, none when the end does not lie after the start. */
  function JsSlice<T>(s: seq<T>, start: int, end: int): (r: seq<T>)
    ensures |r| == Max(0, ResolveIndex(end, |s|) - ResolveIndex(start, |s|))
    ensures forall k :: 0 <= k < |r| ==> r[k] == s[ResolveIndex(start, |s|) + k]
    ensures 0 <= start <= end <= |s| ==> r == s[start..end]
  {
    var from, to := ResolveIndex(start, |s|), ResolveIndex(end, |s|);
    if from < to then s[from..to] else []
  }

  /** A block of `limit` entries from `offset` holds only entries of the
      sequence, at most `limit` of them, and from a non-negative offset
      exactly what is left after it, up to the limit. */
  lemma BlockLaws<T>(items: seq<T>, offset: int, limit: int)
    ensures forall x :: x in JsSlice(items, offset, offset + limit) ==> x in items
    ensures limit > 0 ==> |JsSlice(items, offset, offset + limit)| <= limit
    ensures offset >= 0 && limit >= 1 ==>
      |JsSlice(items, offset, offset + limit)| == Min(limit, Max(0, |items| - offset))
  {
    var r := JsSlice(items, offset, offset + limit);
    assert forall k :: 0 <= k < |r| ==> r[k] in items;
  }

  lemma OffsetNonNegative(a: nat, b: nat)
    ensures a * b >= 0
  {
  }

  /** `students.slice(offset, offset + limit)` with `offset = (page - 1) * limit`.
      NaN in either number makes both slice bounds NaN, which slice reads as 0. */
  function Page<T>(items: seq<T>, page: Num, limit: Num): (r: seq<T>)
    ensures |r| <= |items|
    ensures forall x :: x in r ==> x in items
    ensures page.NaN? || limit.NaN? ==> r == []
    ensures limit.Int? && limit.n > 0 ==> |r| <= limit.n
    ensures page.Int? && limit.Int? && page.n >= 1 && limit.n >= 1 ==>
      |r| == Min(limit.n, Max(0, |items| - (page.n - 1) * limit.n))
  {
    match (page, limit)
    case (Int(p), Int(l)) =>
      var offset := (p - 1) * l;
      assert p >= 1 && l >= 1 ==> offset >= 0 by {
        if p >= 1 && l >= 1 { OffsetNonNegative(p - 1, l); }
      }
      BlockLaws(items, offset, l);
      JsSlice(items, offset, offset + l)
    case _ => []
  }

  /** `Math.ceil(total / limit)`; None where JavaScript gives NaN or
      Infinity, both of which the JSON response writes as null. */
  function TotalPages(total: nat, limit: Num): (r: Option<int>)
    ensures limit.NaN? || limit == Int(0) ==> r == None
    ensures limit.Int? && limit.n > 0 ==> r.Some? && (r.value - 1) * limit.n < total <= r.value * limit.n
    ensures limit.Int? && limit.n < 0 ==> r.Some? && r.value * limit.n <= total < (r.value - 1) * limit.n
  {
    match limit
    case NaN => None
    case Int(l) =>
      if l > 0 then
        var t := (total + l - 1) / l;
        CeilBounds(total, l, t);
        Some(t)
      else if l < 0 then
        var t := -(total / -l);
        NegativeCeilBounds(total, l, t);
        Some(t)
      else None
  }

  lemma CeilBounds(total: nat, l: int, t: int)
    requires l > 0 && t == (total + l - 1) / l
    ensures (t - 1) * l < total <= t * l
  {
    assert t * l <= total + l - 1 < t * l + l;
    assert (t - 1) * l == t * l - l;
  }

  lemma NegativeCeilBounds(total: nat, l: int, t: int)
    requires l < 0 && t == -(total / -l)
    ensures t * l <= total < (t - 1) * l
  {
    var m, q := -l, total / -l;
    assert q * m <= total < q * m + m;
    assert t * l == q * m;
    assert (t - 1) * l == q * m + m;
  }

  lemma MulMonotone(a: int, b: int, c: int)
    requires a <= b && c > 0
    ensures a * c <= b * c
  {
  }

  /** Pages 1, 2, ... hold the records in order: record `i` is entry
      `i % limit` of page `i / limit + 1`. */
  lemma PagesHoldRecordsInOrder<T>(items: seq<T>, limit: int, i: nat)
    requires limit > 0 && i < |items|
    ensures var page := Page(items, Int(i / limit + 1), Int(limit));
      i % limit < |page| && page[i % limit] == items[i]
  {
    var q, m := i / limit, i % limit;
    DivMod(i, limit);
    var start := q * limit;
    assert (q + 1 - 1) * limit == start;
    assert 0 <= start <= i < start + limit;
    var page := JsSlice(items, start, start + limit);
    assert ResolveIndex(start, |items|) == start;
    assert page[m] == items[start + m];
  }

  lemma DivMod(i: nat, limit: int)
    requires limit > 0
    ensures i == (i / limit) * limit + i % limit && 0 <= i % limit < limit && 0 <= i / limit
  {
  }

  /** Pages after the last one are empty, and so is page 0. */
  lemma PagesBeyondEndAreEmpty<T>(items: seq<T>, limit: int, p: int)
    requires limit > 0
    requires p > TotalPages(|items|, Int(limit)).value || p == 0
    ensures Page(items, Int(p), Int(limit)) == []
  {
    var t := TotalPages(|items|, Int(limit)).value;
    if p > t {
      MulMonotone(t, p - 1, limit);
      assert ResolveIndex((p - 1) * limit, |items|) == |items|;
    } else {
      assert (p - 1) * limit + limit == 0;
    }
  }

  /** The page number is not checked: a negative page counts back from
      the end of the list, so page -1 holds the block of `limit` records
      just before the last `limit`. */
  lemma NegativePageCountsFromEnd<T>(items: seq<T>, limit: int)
    requires limit > 0 && |items| >= 2 * limit
    ensures Page(items, Int(-1), Int(limit)) == items[|items| - 2 * limit..|items| - limit]
  {
    assert (-1 - 1) * limit == -2 * limit;
  }

  // ---------------------------------------------------------------------
  // The endpoint
  // ---------------------------------------------------------------------

  /** `Query.limit(1000)`: at most this many documents are scanned. */
  const StudentsScanLimit := 1000
  const DefaultPage := 1
  const DefaultLimit := 50

  datatype StudentsResponse =
    | StudentsUnauthorized
    | StudentsServerError
    | StudentsOk(students: seq<StudentRecord>, total: nat, page: Num, limit: Num, totalPages: Option<int>)

  function Scanned(stored: seq<OrderDoc>): seq<OrderDoc> {
    if |stored| < StudentsScanLimit then stored else stored[..StudentsScanLimit]
  }

  /** `GET /api/students`: 401 without the right token, 500 when the store
      fails, otherwise the requested page of the roll-up of the first
      documents the store lists, with the roll-up's size and page count. */
  function StudentsRoute(header: Option<string>, env: Option<string>, stored: seq<OrderDoc>, available: bool,
                         pageParam: Option<Num>, limitParam: Option<Num>): (r: StudentsResponse)
    ensures !Authorized(header, ConfiguredToken(env)) <==> r == StudentsUnauthorized
    ensures r == StudentsServerError <==> Authorized(header, ConfiguredToken(env)) && !available
    ensures r.StudentsOk? ==> r.page == ParamOr(pageParam, DefaultPage) && r.limit == ParamOr(limitParam, DefaultLimit)
    ensures r.StudentsOk? ==> r.total == |StudentIdSet(Scanned(stored))| && |r.students| <= r.total
    ensures r.StudentsOk? ==> r.students == Page(Rollup(Scanned(stored)), r.page, r.limit)
    ensures r.StudentsOk? ==> r.totalPages == TotalPages(r.total, r.limit)
  {
    if !Authorized(header, ConfiguredToken(env)) then StudentsUnauthorized
    else if !available then StudentsServerError
    else
      var all := Rollup(Scanned(stored));
      var page, limit := ParamOr(pageParam, DefaultPage), ParamOr(limitParam, DefaultLimit);
      RollupCountsDistinctStudents(Scanned(stored));
      StudentsOk(Page(all, page, limit), |all|, page, limit, TotalPages(|all|, limit))
  }

  /** Every record the endpoint returns names a student with a scanned
      document and describes that student's scanned orders. */
  lemma RouteRecordsDescribeStudents(header: Option<string>, env: Option<string>, stored: seq<OrderDoc>,
                                     available: bool, pageParam: Option<Num>, limitParam: Option<Num>)
    ensures var r := StudentsRoute(header, env, stored, available, pageParam, limitParam);
      r.StudentsOk? ==> forall s :: s in r.students ==> Describes(Scanned(stored), s)
  {
    var docs := Scanned(stored);
    RollupLaws(docs);
    var recs := Rollup(docs);
    forall s | s in recs ensures Describes(docs, s) {
      var i :| 0 <= i < |recs| && recs[i] == s;
    }
  }
}

=== FILE: wrappers.dfy ===
/** Failure-carrying values shared by every module of the model. */
module Wrappers {

  /** A value that may be absent: a missing header, an unset optional field. */
  datatype Option<+T> = None | Some(value: T)

  /** The outcome of a call into the order store: a value or an error. */
  datatype Result<+R, +E> = Success(value: R) | Failure(error: E)
}
